=== FILE: README.md ===
# LSB watermarking of the NFD data marketplace, in Dafny

This project models the image watermarking core of the NFD data
marketplace (kvu228/nfd-data-marketplace) and proves properties about it.
The repository has two separate least-significant-bit (LSB) codecs and a
few pure helpers around them:

- **The keyed codec** (`lsb_wm` package). A carrier is a key: an integer,
  or an integer array. The carrier seeds a pseudo-random choice of
  pixels. Bits go into bit 0 of the chosen channels of those pixels,
  pixel by pixel and then channel by channel. A zero-bit watermark embeds
  a fixed pattern (`alternating`, `ones` or a seeded `checksum`). Detection
  compares the extracted bits with the pattern against a threshold. A
  multi-bit watermark repeats every message bit R times, and extraction
  undoes the repetition by a strict majority vote.
- **The flat codec** (`src/lsb_watermarking`). It writes bit i into bit 0
  of flat sample i of the row-major, channel-interleaved raster, and reads
  it back from there.
- **Message packing for the marketplace** (`main_multibit.py`, `utils.py`).
  An owner id and a buyer id become a 12-digit binary watermark line. The
  line is written into every image of a batch. Extraction parses it back
  from the first 12 decoded bits. Text converts to 8-bit binary and back,
  and message files are padded and repeated to one message per image.
- **`xor_cipher`** (`src/utils.py`): data XORed with a cyclically repeated
  key.

Modules follow the program's structure:

- `Lsb`: the bit-0 write and read primitives.
- `Rasters`: a flat `seq<bv8>` raster with height, width and channels,
  as a C-contiguous numpy array is laid out.
- `KeyedEncode` and `KeyedDecode`: the `lsb_wm` package.
- `FlatCodec`: the flat codec.
- `Binary`, `Messages` and `Paths`: `bin`, `zfill` and `int(s, 2)`; the
  message helpers; the POSIX path functions.
- `Marketplace`: the `main_multibit.py` workflow.
- `XorCipher`: `xor_cipher`.
- `Arith`, `Seqs` and `Results`: shared helpers.

Every Python exception on a modelled path becomes an `Err` of
`Results.Result`. That covers each ValueError, plus the ZeroDivisionError
of an empty channel list, a zero redundancy, an empty key or an empty
message list, and the ValueError `RandomState` raises for a seed outside
[0, 2^32).

numpy's `RandomState(seed).choice(total, size, replace=False)` and
`RandomState(seed).randint(0, 2, size)` are foreign code. They are
parameters: functions of the seed (`KeyedEncode.Sampler`,
`KeyedEncode.BitSource`). Their documented guarantees are hypotheses
(`IsSampler`, `IsBitSource`): the right count, distinct draws below the
total, and bits in {0, 1}. Because the model is pure, embedding and
detection with the same carrier see the same draws, as seeded numpy does.

## Model

| member | source | states |
|---|---|---|
| Lsb.SetLsb | lsb_wm/lsb_wm/encode.py:96-103 | `(s & 0xFE) \| b` has bit 0 equal to `b` and the same upper seven bits as `s` |
| Lsb.WriteLsbs | src/lsb_watermarking/encode.py:44-47 | writing bits into a list of targets keeps the length, changes no upper bit, and leaves every non-target sample as it was |
| Lsb.WriteLsbsSets | src/lsb_watermarking/encode.py:45-47 | when no target repeats, target k ends up as `(s & 0xFE) \| bits[k]` of its old sample |
| Lsb.ReadAfterWrite | src/lsb_watermarking/decode.py:39-41 | reading bit 0 of the targets just written, with no target repeated, returns the written bits |
| Rasters.FlatLayout | src/lsb_watermarking/encode.py:30-50 | flat index i of the row-major, channel-fastest layout is channel `i mod C` of pixel `((i div C) div W, (i div C) mod W)`, and that slot's offset is i again |
| Rasters.WriteSlots | lsb_wm/lsb_wm/encode.py:67-105 | writing bits into (pixel, channel) slots keeps the shape, changes only bit 0, leaves unlisted slots alone, and with distinct slots sets slot k to bit k |
| Rasters.ReadSlotsAfterWrite | lsb_wm/lsb_wm/decode.py:29-47 | reading back distinct slots just written returns the written bits |
| KeyedEncode.VectorSeedInRange | lsb_wm/lsb_wm/encode.py:29-36 | an array carrier's seed `(sum\|c\| * 10^6) mod (2^31 - 1)` lies in [0, 2^31 - 1), so `RandomState` accepts it |
| KeyedEncode.SeedIgnoresOrder | lsb_wm/lsb_wm/encode.py:33 | rotating an array carrier gives the same seed, and so the same pixels |
| KeyedEncode.SeedIgnoresSign | lsb_wm/lsb_wm/encode.py:33 | negating every carrier entry gives the same seed |
| KeyedEncode.ChecksumSeedIsMultipleOf64 | lsb_wm/lsb_wm/encode.py:184 | the `checksum` pattern seed `(sum\|c\| * 10^6) mod 256` is always 0, 64, 128 or 192 |
| KeyedEncode.SelectPixels | lsb_wm/lsb_wm/encode.py:25-50 | fails exactly for a seed `RandomState` rejects; otherwise returns `min(num_pixels, h*w)` distinct positions, each inside the image, position k being `(i // width, i % width)` for the k-th flat index `i` that `choice(h*w, min(num_pixels, h*w))` draws under the carrier's seed |
| KeyedEncode.ToRgb | lsb_wm/lsb_wm/encode.py:162-166 | a 2-D array becomes three equal channels, a 4-channel array loses channel 3, anything else is unchanged |
| KeyedEncode.TraversalShape | lsb_wm/lsb_wm/encode.py:82-105 | the nested loop visits `min(n, P*C)` samples, and step k is channel `channels[k mod C]` of pixel `positions[k div C]` |
| KeyedEncode.TraversalDistinct | lsb_wm/lsb_wm/encode.py:82-105 | with distinct positions and distinct channels, no sample is visited twice |
| KeyedEncode.EmbedBits | lsb_wm/lsb_wm/encode.py:53-107 | raises exactly when `len(bits) > P*C`; otherwise only bit 0 changes, unvisited samples keep their value, and with distinct positions and channels visited sample k holds `bits[k]` |
| KeyedEncode.PatternBits | lsb_wm/lsb_wm/encode.py:174-188 | `alternating` gives `i mod 2`, `ones` gives all 1, `checksum` gives the seeded draw, any other name raises; the length is the requested one |
| KeyedEncode.Embed0Bit | lsb_wm/lsb_wm/encode.py:132-196 | fails exactly for a rejected seed (checked first) or an unknown pattern; otherwise the RGB array changes only in bit 0, with no capacity error; with distinct channels, traversal slot k of the selected pixels holds bit k of the pattern in bit 0 |
| KeyedEncode.Repeat | lsb_wm/lsb_wm/encode.py:232-233 | `np.repeat(m, R)` has length K*R, and entry i is `m[i div R]` |
| KeyedEncode.EmbedMultibit | lsb_wm/lsb_wm/encode.py:199-272 | an empty channel list divides by zero; `ceil(K*R / C) > h*w` raises the capacity error before any pixel is chosen; otherwise it succeeds exactly for an accepted seed and changes only bit 0; with distinct channels, traversal slot k of the selected pixels holds bit k of `np.repeat(message, R)` in bit 0 |
| KeyedDecode.ExtractBits | lsb_wm/lsb_wm/decode.py:13-49 | returns `min(num_bits, P*C)` bits, bit k being bit 0 of channel `channels[k mod C]` of pixel `positions[k div C]` |
| KeyedDecode.EmbedExtractRoundTrip | lsb_wm/lsb_wm/decode.py:29-49 | with distinct positions and channels, extracting `len(b)` bits from `embed_bits(img, P, b, Ch)` gives back `b` |
| KeyedDecode.MajorityBit | lsb_wm/lsb_wm/decode.py:73 | a group votes 1 exactly when twice its count of ones exceeds R |
| KeyedDecode.MajorityVote | lsb_wm/lsb_wm/decode.py:52-75 | R = 0 divides by zero; otherwise the output has `len(bits) div R` entries (trailing bits ignored), and entry i is the vote of copies `i*R .. i*R + R` |
| KeyedDecode.MajorityBitRecovers | lsb_wm/lsb_wm/decode.py:73 | a group with fewer than half its copies flipped still votes for the original bit |
| KeyedDecode.MajorityTieIsZero | lsb_wm/lsb_wm/decode.py:73 | an even-R tie votes 0 |
| KeyedDecode.MajorityVoteCorrects | lsb_wm/lsb_wm/decode.py:63-73 | if every group of K*R noisy bits has fewer than half its copies flipped, the vote returns the message |
| KeyedDecode.MajorityOfRepeat | lsb_wm/lsb_wm/decode.py:63-73 | for R >= 1, `majority_vote(np.repeat(m, R), R) == m` |
| KeyedDecode.AgreementsFull | lsb_wm/lsb_wm/decode.py:97 | every position agrees exactly when the two bit arrays are equal |
| KeyedDecode.BitAccuracy | lsb_wm/lsb_wm/decode.py:78-100 | lies in [0, 1]; is 0 when either input is empty; otherwise times the common length `n` it is the number of agreeing positions among the first `n`; is 1 exactly when the common-length prefixes are non-empty and equal |
| KeyedDecode.MatchRatio | lsb_wm/lsb_wm/decode.py:166 | `matches / total` is NaN exactly when total is 0, else the value whose product with `total` is `matches`: in [0, 1], and 1 exactly when every bit matched |
| KeyedDecode.Detect0Bit | lsb_wm/lsb_wm/decode.py:103-178 | fails exactly for a rejected seed or an unknown pattern; pattern_match is the agreement ratio of the LSBs read from the selected pixels' channels against the expected pattern of `len(positions) * len(channels)` bits, NaN exactly when no bit is compared; confidence equals pattern_match; detected iff pattern_match >= threshold |
| KeyedDecode.ZeroBitRoundTrip | lsb_wm/lsb_wm/decode.py:146-170 | detecting with the parameters used to embed gives pattern_match 1 and a detection at any threshold up to 1 (unless nothing was embedded) |
| KeyedDecode.ClearImageNotDetected | lsb_wm/lsb_wm/decode.py:146-170 | an image whose every sample has bit 0 clear, read over an even positive number of bits, matches the alternating pattern on exactly half of them, so pattern_match is 0.5 and no threshold above 0.5 detects it |
| KeyedDecode.GrayImageNotDetected | lsb_wm/tests/test_decode.py:178-187 | a 100 x 100 RGB image of gray 128, checked on 100 pixels at threshold 0.7, is not detected |
| KeyedDecode.ExtractMultibit | lsb_wm/lsb_wm/decode.py:181-238 | a missing num_bits raises before anything else; no channels or R = 0 divide by zero; otherwise it succeeds exactly for an accepted seed, and the result is the majority vote, in groups of R, over the `K*R` LSBs read at the `ceil(K*R / C)` selected pixels; K bits whenever the message fits and never more |
| KeyedDecode.NoisyExtractRecovers | lsb_wm/lsb_wm/decode.py:223-236 | when each group of R copies read from the image has fewer than R/2 bits flipped away from its message bit, extraction still returns the message |
| KeyedDecode.MultibitRoundTrip | lsb_wm/lsb_wm/decode.py:223-236 | extracting with K = len(m) and the embedding carrier and parameters from `embed_multibit(m)` gives `m` back whenever it fits |
| FlatCodec.EncodeImage | src/lsb_watermarking/encode.py:9-61 | raises exactly when `num_bits > h*w*c`; otherwise the shape is kept, flat sample i < num_bits becomes `(s & 0xFE) \| bit_i`, and every later sample is unchanged |
| FlatCodec.EncodedBitLocation | src/lsb_watermarking/encode.py:42-50 | bit i lands, as bit 0, in channel `i mod C` of pixel `((i div C) div W, (i div C) mod W)` |
| FlatCodec.DecodeImage | src/lsb_watermarking/decode.py:8-43 | raises exactly when `num_bits > h*w*c`; otherwise returns num_bits entries, entry i being `flat[i] & 1` |
| FlatCodec.FlatRoundTrip | src/lsb_watermarking/decode.py:39-41 | decoding `len(b)` or more bits from the encoded raster starts with `b`, followed by the untouched samples' own bit 0 |
| FlatCodec.OutputPath | src/lsb_watermarking/encode.py:79-84 | with a non-empty output directory the file is `dir + name` when `dir` ends in '/', else `dir + "/" + name`, where `name` is the basename with `_watermarked` before its extension, which it keeps; with no directory or an empty one it overwrites the original |
| FlatCodec.EncodeBatch | src/lsb_watermarking/encode.py:64-89 | one output per zipped (path, message) pair, `min(len(paths), len(msgs))` in all, in order; fails exactly when some message does not fit, with the capacity error of the first such message |
| FlatCodec.DecodeBatch | src/lsb_watermarking/decode.py:46-63 | one decoded message per image in input order; fails exactly when some image is too small for num_bits, with the capacity error of the first such image |
| Paths.SplitExt | src/lsb_watermarking/encode.py:81 | the stem and extension concatenate to the name; an extension starts at the last '.' of the last component unless only dots precede it |
| Paths.Basename | src/lsb_watermarking/encode.py:80 | the result is the suffix of the path after its last '/' |
| Paths.JoinPath | src/lsb_watermarking/encode.py:82 | an absolute second part wins; otherwise the parts are joined with one '/' |
| Paths.WatermarkedName | src/lsb_watermarking/encode.py:81-82 | `name + "_watermarked" + ext` splits back into the marked stem and the same extension |
| Binary.ZFillBin | src/lsb_watermarking/main_multibit.py:200-205 | `bin(n)[2:].zfill(w)` is the w-digit binary of n when `n < 2^w` |
| Binary.ParseBin | src/lsb_watermarking/main_multibit.py:184-185 | `int(s, 2)` restricted to strings of '0'/'1' digits, the only strings it meets at this call: succeeds exactly on a non-empty such string; the value is below `2^len(s)` and its `len(s)`-digit binary is `s` again |
| Binary.ParseBitsOf | src/lsb_watermarking/main_multibit.py:184-185 | `int(s, 2)` of the w-digit binary of `n < 2^w` is n |
| Binary.Format08b | src/lsb_watermarking/utils.py:10 | `format(n, '08b')` is the 8-digit binary of n for n < 256 |
| Messages.StringToBinary | src/lsb_watermarking/utils.py:8-10 | the result is binary, 8 digits per character of 8-bit text, the first character's numeral first |
| Messages.StringToBinaryChunks | src/lsb_watermarking/utils.py:10 | digits `8i .. 8i + 8` are the 8-digit numeral of character i |
| Messages.BinaryToString | src/lsb_watermarking/utils.py:13-15 | for strings of '0'/'1' digits: succeeds exactly on binary digits, with one character per 8-digit chunk from the left, a shorter last chunk included, character k's code being the binary value of digits `8k` to `min(8k+8, len)` |
| Messages.BinaryRoundTrip | src/lsb_watermarking/utils.py:10-15 | `binary_to_string(string_to_binary(s)) == s` when every character is below 256 |
| Messages.BitModeMessages | src/lsb_watermarking/utils.py:36-39 | fails exactly on a non-digit; otherwise each line becomes max-length bits, bit i being 1 exactly when the line has a '1' there |
| Messages.TextModeMessages | src/lsb_watermarking/utils.py:40-43 | one message per line; for an 8-bit line the message has 8 bits per character of the longest line, bits `8i .. 8i+8` being the 8-bit code of the line's character i, or of ' ' past the line's end |
| Marketplace.TextMessageRoundTrip | src/lsb_watermarking/utils.py:40-43 | the digits of an 8-bit line's text-mode message read back through `binary_to_string` as the line right-padded with spaces to the longest line |
| Messages.LoadMessages | src/lsb_watermarking/utils.py:28-47 | no lines give an empty result; otherwise exactly N messages, message j being padded line `j mod len(lines)`; only bit mode can fail |
| Marketplace.FormatId | src/lsb_watermarking/main_multibit.py:200-205 | the six-digit id field is binary and has value `id mod 64` |
| Marketplace.FormatIdAgrees | src/lsb_watermarking/main_multibit.py:200-205 | for ids below 256, `bin(id)[2:].zfill(8)[2:]` is exactly that six-digit field |
| Marketplace.SetWatermarkAgrees | src/lsb_watermarking/main_multibit.py:200-208 | for ids below 256 the line as written is the 12-digit owner-then-buyer line |
| Marketplace.SetWatermark | src/lsb_watermarking/main_multibit.py:200-208 | the corrected line (each field the id's last six bits, as the comment at line 203 intends; equal to the code's line for ids below 256 by `SetWatermarkAgrees`) is 12 binary digits: the owner's field, then the buyer's |
| Marketplace.BitString | src/lsb_watermarking/main_multibit.py:80 | each bit becomes '0' or '1', length kept, and reading the digits back gives the bits |
| Marketplace.BitStringOfNumeral | src/lsb_watermarking/main_multibit.py:80 | writing out a digit string's bits gives the string back |
| Marketplace.DecodeWatermark | src/lsb_watermarking/main_multibit.py:69-83 | no images give an empty list; fails exactly when an image holds fewer than 12 samples; otherwise one 12-digit string per image whose digits are that image's decoded bits |
| Marketplace.ParseWatermark | src/lsb_watermarking/main_multibit.py:171-185 | no string raises; a first string shorter than 12 raises; otherwise it succeeds exactly when the first 12 characters are binary, and both ids are below 64 with the fields as their 6-digit binaries |
| Marketplace.ParseFormatRoundTrip | src/lsb_watermarking/main_multibit.py:184-185 | parsing `set_watermark(o, b)` gives `(o mod 64, b mod 64)` |
| Marketplace.LongOwnerIdShiftsBuyer | src/lsb_watermarking/main_multibit.py:200-208 | as written, owner 256 gives a 7-digit field and a 13-digit line whose first 12 digits parse as (0, 0); the corrected line parses as (0, 1) |
| Marketplace.FormatIdAsWrittenWide | src/lsb_watermarking/main_multibit.py:200-205 | as written, ids 256 to 511 yield their low seven bits, one digit more than the field holds |
| Marketplace.ExtractWatermark | src/lsb_watermarking/main_multibit.py:144-187 | an image with fewer than 12 samples raises; any other image yields two ids below 64 whose 6-digit binaries, owner then buyer, are the 12 decoded digits |
| Marketplace.TileMessages | src/lsb_watermarking/main_multibit.py:124-127 | enough messages stay as they are; fewer are tiled to exactly one per image, entry j being `msgs[j mod len(msgs)]`; none at all divides by zero |
| Marketplace.Watermark | src/lsb_watermarking/main_multibit.py:85-142 | no images do nothing; images with an empty message file divide by zero; otherwise it fails exactly when loading the messages fails (with that error) or a message does not fit its image, and output k is image k encoded with message k, saved under `<output_dir>/imgs` |
| Marketplace.MarketplaceRoundTrip | src/lsb_watermarking/main_multibit.py:122-185 | an image watermarked with the corrected `set_watermark(o, b)` (the code's line for ids below 256) and then extracted yields `(o mod 64, b mod 64)` |
| XorCipher.KeyStream | src/utils.py:61 | the key stream has `len(data)` bytes, byte i being `key[i mod len(key)]` |
| XorCipher.Xor | src/utils.py:59-63 | an empty key divides by zero; otherwise `len(data)` bytes, byte i being `data[i] ^ key[i mod len(key)]` |
| XorCipher.XorInvolution | src/utils.py:59-63 | enciphering twice with one key returns the data |
| XorCipher.XorLongKey | src/utils.py:61 | a key at least as long as the data acts as its prefix `key[:len(data)]` |

## Left out

- `compute_psnr` (lsb_wm/lsb_wm/encode.py:110-129) is floating-point `log10` and `sqrt`. It does not affect the returned image.
- MT19937, `choice` and `randint` are foreign library code. They are parameters with their documented guarantees as hypotheses.
- KeyedEncode.CarrierSeed: an array carrier's seed is computed on unbounded integers. The source converts the int64 sum to float64 before `* 1e6`; this is exact only while |sum| * 10^6 <= 2^53, and above that the float product rounds. `np.abs` and `np.sum` also wrap at int64, which the model does not. `KeyedEncode.ChecksumSeed` shares both gaps. Float carrier entries are not modelled.
- Statistical claims are not modelled, such as a confidence near 0.5 for a wrong carrier.
- Image files are not modelled: PIL open, `convert('RGB')`, `Image.fromarray` and the PNG save. An image is the array it decodes to. The flat codec accepts any channel count, while the source always works on 3 RGB channels.
- Directory walks, temporary files, file moves and `makedirs` in `main_multibit.py` are left out.
  - `Marketplace.DecodeWatermark` takes the images as a list.
  - `Marketplace.ExtractWatermark` decodes the one image it is given. The source walks the whole data directory and parses the first image it finds.
- `watermark` with no message file (`generate_messages`, random), `save_messages` and `get_num_bits` are left out. They are file I/O or randomness.
- `watermark_image` and the rest of `main_multibit.py` (lines 218-262) are left out. They are file lookups and moves.
- The constructor's `output_dir` already ends in `imgs`, and `watermark` joins another `imgs` onto it. `Marketplace.Watermark` takes the output directory as a parameter, so this doubling is not visible in the model.
- Marketplace.Watermark: when an image does not fit, the source has already saved the images before it; the model returns only the error.
- Messages.LoadMessages: the lines are taken already read and stripped; `str.strip` is not modelled.
- Messages.DigitIsOne: Python's `int()` also accepts other Unicode decimal digits; only '0'-'9' are modelled as digits.
- Text mode with characters at or above 256 gives longer rows that numpy cannot stack. `Messages.TextModeMessages` returns them unstacked and does not model that error.
- KeyedEncode.EmbedBits: channel indices are required to be below the channel count. Python would raise IndexError for a larger one, or count from the end for a negative one.
- Marketplace.FormatId: ids are natural numbers. `bin` of a negative id gives a '-' sign, which is not modelled.
- KeyedEncode.EmbedMultibit: `np.ceil(total / C)` is computed as an exact integer ceiling. The source uses a float, which could round differently for totals beyond 2^53.
- KeyedDecode.MatchRatio: `matches / total` and `correct / n` are float64 divisions in the source (lsb_wm/lsb_wm/decode.py:98 and 166), and `pattern_match >= threshold` (line 169) compares floats. The model uses exact rationals. The float quotient of two counts below 2^53 is the correctly rounded ratio, so it differs from the exact ratio by at most half a unit in the last place. A threshold comparison can come out differently only when the exact ratio lies that close to the threshold. `KeyedDecode.BitAccuracy` and `KeyedDecode.Detect0Bit` share this gap.
- KeyedDecode.ExtractMultibit: the same exact ceiling replaces the float `np.ceil(total_bits / bits_per_pixel)` of lsb_wm/lsb_wm/decode.py:227.
- Binary.ParseBin: Python's `int(s, 2)` also accepts a `0b` prefix, surrounding whitespace, underscores between digits and a sign. The model rejects those. At main_multibit.py:184-185 the string comes from decoded bits, so it holds only '0' and '1'.
- Messages.BinaryToString: each chunk is read by `Binary.ParseBin`, so a chunk such as `" 101"` or `"-1"` that Python's `int(s, 2)` accepts is rejected here. No code in the repository calls `binary_to_string`; the model covers strings of '0'/'1' digits, such as `string_to_binary` produces.
- "Decoding reads only" holds trivially: every function here is pure.
- `select_pixels` is deterministic in the model, because the sampler is a function of the seed.
- The blockchain, UI and database code is not part of this model: `src/contract.py`, `src/market.py`, `src/upload.py`, `src/dashboard.py`, `src/app.py`, `src/extract_watermark.py`, `src/user_utils.py` and `test_hardhat.py`. The wei conversions and ABI loaders of `src/utils.py` are left out as well.
- Demo scripts and package re-exports are left out: `lsb_wm/examples` and `lsb_wm/lsb_wm/__init__.py`. The SSL watermarking variant is not part of this model.

## Findings

| source | as written | input that shows it | evidently intended | confidence | as-written member | corrected member |
|---|---|---|---|---|---|---|
| src/lsb_watermarking/main_multibit.py:200-208 | each id is formatted as `bin(id)[2:].zfill(8)[2:]`, which drops only the first two digits, so an id of 256 or more gives a field of 7 or more digits | owner_id 256, buyer_id 1: the line is 13 digits, and `extract_watermark` parses its first 12 digits as (0, 0) | the comment "Pad to 8 bits, then take last 6 bits": each field is the id's last six bits, so the line parses as (0, 1) | medium; not executed | Marketplace.LongOwnerIdShiftsBuyer | Marketplace.ParseFormatRoundTrip |

=== FILE: arith.dfy ===
/** Integer facts the codecs lean on: quotient/remainder bounds for the
    mixed-radix layouts (pixel, channel) and (group, copy), and ceiling
    division. */
module Arith {

  function Min(a: int, b: int): int
  {
    if a <= b then a else b
  }

  function Max(a: int, b: int): int
  {
    if a <= b then b else a
  }

  /** `ceil(a / b)` for a positive divisor, as `int(np.ceil(a / b))` computes it. */
  function CeilDiv(a: nat, b: nat): (q: nat)
    requires b > 0
    ensures q * b >= a
    ensures q == 0 || (q - 1) * b < a
  {
    DivMod(a, b);
    if a % b == 0 then a / b else a / b + 1
  }

  /** The Euclidean identity, spelled out so callers can mention it. */
  lemma DivMod(a: int, b: int)
    requires b > 0
    ensures a == (a / b) * b + a % b
    ensures 0 <= a % b < b
  {
  }

  /** `a * b == b + (a - 1) * b` */
  lemma MulPred(a: nat, b: nat)
    requires a >= 1
    ensures a * b == b + (a - 1) * b
    ensures a * b >= b
  {
  }

  lemma MulMono(x: int, y: int, b: nat)
    requires x <= y
    ensures x * b <= y * b
  {
  }

  /** If `k` is below `a * b` then its quotient by `b` is below `a`. */
  lemma DivBelow(k: nat, a: nat, b: nat)
    requires k < a * b
    ensures b > 0
    ensures k / b < a
  {
    if b > 0 {
      DivMod(k, b);
      if k / b >= a {
        MulMono(a, k / b, b);
      }
    }
  }

  /** Mixed-radix digits stay in range: `x * b + y < a * b` when `x < a`, `y < b`. */
  lemma RadixBound(x: nat, a: nat, y: nat, b: nat)
    requires x < a && y < b
    ensures x * b + y < a * b
  {
    MulMono(x, a - 1, b);
    assert (a - 1) * b == a * b - b;
  }

  /** Mixed-radix digits are recovered by division and remainder. */
  lemma RadixDigits(x: int, y: int, b: nat)
    requires b > 0 && 0 <= y < b
    ensures (x * b + y) / b == x
    ensures (x * b + y) % b == y
  {
    var n := x * b + y;
    DivMod(n, b);
    var q := n / b;
    var r := n % b;
    assert (q - x) * b == y - r;
    if q - x >= 1 {
      MulMono(1, q - x, b);
    } else if q - x <= -1 {
      MulMono(q - x, -1, b);
    }
  }

  /** Two mixed-radix numerals are equal only when their digits are. */
  lemma RadixInjective(x: int, y: int, x': int, y': int, b: nat)
    requires b > 0 && 0 <= y < b && 0 <= y' < b
    requires x * b + y == x' * b + y'
    ensures x == x' && y == y'
  {
    RadixDigits(x, y, b);
    RadixDigits(x', y', b);
  }

  /** Dropping one block of `b` from `k` lowers the quotient by one. */
  lemma DivSubOne(k: int, b: nat)
    requires b > 0 && k >= b
    ensures (k - b) / b == k / b - 1
    ensures (k - b) % b == k % b
  {
    DivMod(k, b);
    RadixDigits(k / b - 1, k % b, b);
    assert (k / b - 1) * b + k % b == k - b;
  }

  /** A number below the modulus is its own remainder. */
  lemma ModBelow(x: nat, m: nat)
    requires x < m
    ensures x % m == x
  {
    RadixDigits(0, x, m);
  }

  /** Division by a positive number is monotone. */
  lemma DivMono(a: nat, b: nat, d: nat)
    requires d > 0 && a <= b
    ensures a / d <= b / d
  {
    DivMod(a, d);
    DivMod(b, d);
    if a / d > b / d {
      MulMono(b / d + 1, a / d, d);
    }
  }

  /** Groups `i < n / b` of `b` consecutive items lie inside `n` items. */
  lemma GroupInside(n: nat, b: nat, i: nat)
    requires b > 0 && i < n / b
    ensures i * b + b <= n
  {
    DivMod(n, b);
    MulMono(i + 1, n / b, b);
  }

  function Pow2(k: nat): (p: nat)
    ensures p >= 1
  {
    if k == 0 then 1 else 2 * Pow2(k - 1)
  }

  lemma Pow2Add(a: nat, b: nat)
    ensures Pow2(a + b) == Pow2(a) * Pow2(b)
  {
    if b > 0 {
      Pow2Add(a, b - 1);
      assert Pow2(a + b) == 2 * Pow2(a + b - 1);
    }
  }

  lemma {:induction false} Pow2Mono(a: nat, b: nat)
    requires a <= b
    ensures Pow2(a) <= Pow2(b)
  {
    if a < b {
      Pow2Mono(a, b - 1);
    }
  }

  /** Dividing by 2 and then by `m` is dividing by `2 * m`. */
  lemma DivDiv2(n: nat, m: nat)
    requires m > 0
    ensures n / 2 / m == n / (2 * m)
    ensures 2 * ((n / 2) % m) + n % 2 == n % (2 * m)
  {
    var q := n / 2 / m;
    var r := (n / 2) % m;
    DivMod(n, 2);
    DivMod(n / 2, m);
    assert n == q * (2 * m) + (2 * r + n % 2);
    RadixDigits(q, 2 * r + n % 2, 2 * m);
  }
}

=== FILE: binary.dfy ===
/** Binary numerals as Python spells them: `bin(n)[2:]`, `str.zfill`,
    `format(n, '08b')` and `int(s, 2)`, most significant digit first. */
module Binary {

  import opened Arith
  import opened Results

  predicate IsBinaryDigit(c: char)
  {
    c == '0' || c == '1'
  }

  predicate IsBinary(s: string)
  {
    forall i :: 0 <= i < |s| ==> IsBinaryDigit(s[i])
  }

  function Digit(b: nat): (c: char)
    requires b <= 1
    ensures IsBinaryDigit(c)
  {
    if b == 1 then '1' else '0'
  }

  function DigitValue(c: char): (b: nat)
    requires IsBinaryDigit(c)
    ensures b <= 1 && Digit(b) == c
  {
    if c == '1' then 1 else 0
  }

  /** The number a binary numeral denotes. */
  function Value(s: string): nat
    requires IsBinary(s)
  {
    if |s| == 0 then 0 else 2 * Value(s[..|s| - 1]) + DigitValue(s[|s| - 1])
  }

  /** `bin(n)[2:]`: the shortest numeral of `n`, "0" for zero. */
  function Bin(n: nat): (s: string)
    ensures |s| >= 1 && IsBinary(s)
    ensures Value(s) == n
    ensures n > 0 ==> s[0] == '1'
  {
    if n < 2 then [Digit(n)]
    else
      var s := Bin(n / 2) + [Digit(n % 2)];
      assert s[..|s| - 1] == Bin(n / 2);
      s
  }

  /** `count` zero digits. */
  function Zeros(count: nat): (s: string)
    ensures |s| == count && IsBinary(s)
    ensures forall i :: 0 <= i < count ==> s[i] == '0'
  {
    seq(count, i => '0')
  }

  /** `s.zfill(width)` on a numeral without a sign: zeros on the left up to `width`. */
  function ZFill(s: string, width: nat): (r: string)
    ensures |r| == Max(|s|, width)
    ensures r[|r| - |s|..] == s
    ensures forall i :: 0 <= i < |r| - |s| ==> r[i] == '0'
  {
    if |s| >= width then s else Zeros(width - |s|) + s
  }

  /** Leading zeros do not change the value of a numeral. */
  lemma {:induction false} LeadingZeros(count: nat, s: string)
    requires IsBinary(s)
    ensures IsBinary(Zeros(count) + s)
    ensures Value(Zeros(count) + s) == Value(s)
    decreases |s|
  {
    var z := Zeros(count) + s;
    if |s| == 0 {
      assert z == Zeros(count);
      AllZeros(count);
    } else {
      assert z[..|z| - 1] == Zeros(count) + s[..|s| - 1];
      LeadingZeros(count, s[..|s| - 1]);
    }
  }

  lemma {:induction false} AllZeros(count: nat)
    ensures Value(Zeros(count)) == 0
  {
    if count > 0 {
      assert Zeros(count)[..count - 1] == Zeros(count - 1);
      AllZeros(count - 1);
    }
  }

  /** The `width`-digit numeral of `n mod 2**width`. */
  function BitsOf(n: nat, width: nat): (s: string)
    ensures |s| == width && IsBinary(s)
  {
    if width == 0 then [] else BitsOf(n / 2, width - 1) + [Digit(n % 2)]
  }

  /** A `width`-digit numeral denotes its number modulo `2**width`. */
  lemma {:induction false} ValueOfBitsOf(n: nat, width: nat)
    ensures Value(BitsOf(n, width)) == n % Pow2(width)
  {
    if width > 0 {
      var s := BitsOf(n, width);
      assert s[..width - 1] == BitsOf(n / 2, width - 1);
      ValueOfBitsOf(n / 2, width - 1);
      DivDiv2(n, Pow2(width - 1));
    }
  }

  /** `n >> shift` */
  function ShiftRight(n: nat, shift: nat): nat
  {
    if shift == 0 then n else ShiftRight(n / 2, shift - 1)
  }

  /** The low `b` digits of an `(a + b)`-digit numeral are the `b`-digit
      numeral; the high `a` digits are those of `n >> b`. */
  lemma {:induction false} BitsOfSplit(n: nat, a: nat, b: nat)
    ensures BitsOf(n, a + b) == BitsOf(ShiftRight(n, b), a) + BitsOf(n, b)
  {
    if b > 0 {
      BitsOfSplit(n / 2, a, b - 1);
      calc {
        BitsOf(n, a + b);
        BitsOf(n / 2, a + (b - 1)) + [Digit(n % 2)];
        (BitsOf(ShiftRight(n / 2, b - 1), a) + BitsOf(n / 2, b - 1)) + [Digit(n % 2)];
        BitsOf(ShiftRight(n, b), a) + (BitsOf(n / 2, b - 1) + [Digit(n % 2)]);
      }
    }
  }

  /** Two numerals of one length with one value are the same numeral. */
  lemma {:induction false} ValueInjective(s: string, t: string)
    requires IsBinary(s) && IsBinary(t) && |s| == |t|
    requires Value(s) == Value(t)
    ensures s == t
  {
    if |s| > 0 {
      var k := |s| - 1;
      var a := DigitValue(s[k]);
      var b := DigitValue(t[k]);
      assert Value(s) == 2 * Value(s[..k]) + a;
      assert Value(t) == 2 * Value(t[..k]) + b;
      assert a == b && Value(s[..k]) == Value(t[..k]);
      assert s[k] == Digit(a) == t[k];
      ValueInjective(s[..k], t[..k]);
      assert s == s[..k] + [s[k]] && t == t[..k] + [t[k]];
    }
  }

  /** A numeral of `width` digits denotes less than `2**width`. */
  lemma {:induction false} ValueBelow(s: string)
    requires IsBinary(s)
    ensures Value(s) < Pow2(|s|)
  {
    if |s| > 0 {
      ValueBelow(s[..|s| - 1]);
    }
  }

  /** `bin(n)[2:]` needs at most `width` digits when `n < 2**width`. */
  lemma {:induction false} BinLength(n: nat, width: nat)
    requires width >= 1 && n < Pow2(width)
    ensures |Bin(n)| <= width
  {
    if n >= 2 {
      BinLength(n / 2, width - 1);
    }
  }

  /** Zero-filling `bin(n)[2:]` to `width` digits gives the fixed-width numeral. */
  lemma ZFillBin(n: nat, width: nat)
    requires width >= 1 && n < Pow2(width)
    ensures ZFill(Bin(n), width) == BitsOf(n, width)
  {
    var b := Bin(n);
    BinLength(n, width);
    var z := ZFill(b, width);
    ZFillKeepsValue(b, width);
    ValueOfBitsOf(n, width);
    ModBelow(n, Pow2(width));
    ValueInjective(z, BitsOf(n, width));
  }

  /** A fixed-width numeral is the numeral of its own value. */
  lemma {:induction false} BitsOfValue(s: string)
    requires IsBinary(s)
    ensures BitsOf(Value(s), |s|) == s
  {
    ValueOfBitsOf(Value(s), |s|);
    ValueBelow(s);
    ModBelow(Value(s), Pow2(|s|));
    ValueInjective(BitsOf(Value(s), |s|), s);
  }

  /** `int(s, 2)` for a numeral made of binary digits only; anything else,
      the empty string included, raises ValueError. Signs, underscores,
      surrounding blanks and a `0b` prefix, which Python also accepts, are
      not modelled. */
  function ParseBin(s: string): (r: Result<nat>)
    ensures r.Ok? <==> |s| > 0 && IsBinary(s)
    ensures r.Err? ==> r.error == InvalidLiteral(s)
    ensures r.Ok? ==> r.value < Pow2(|s|) && BitsOf(r.value, |s|) == s
  {
    if |s| > 0 && IsBinary(s) then
      BitsOfValue(s);
      ValueBelow(s);
      Ok(Value(s))
    else Err(InvalidLiteral(s))
  }

  /** Parsing a `width`-digit numeral of `n < 2**width` gives `n` back. */
  lemma ParseBitsOf(n: nat, width: nat)
    requires width > 0 && n < Pow2(width)
    ensures ParseBin(BitsOf(n, width)) == Ok(n)
  {
    ValueOfBitsOf(n, width);
    ModBelow(n, Pow2(width));
  }

  /** Numerals concatenate into numerals. */
  lemma BinaryConcat(a: string, b: string)
    requires IsBinary(a) && IsBinary(b)
    ensures IsBinary(a + b)
  {
    assert forall i :: |a| <= i < |a + b| ==> (a + b)[i] == b[i - |a|];
  }

  /** `format(n, '08b')`: at least eight digits, zero-filled. */
  function Format08b(n: nat): (s: string)
    ensures |s| >= 8 && IsBinary(s) && Value(s) == n
    ensures n < 256 ==> s == BitsOf(n, 8)
  {
    ZFillKeepsValue(Bin(n), 8);
    if n < 256 then
      assert Pow2(8) == 256;
      ZFillBin(n, 8);
      ZFill(Bin(n), 8)
    else ZFill(Bin(n), 8)
  }

  /** Zero-filling keeps a numeral's value. */
  lemma ZFillKeepsValue(s: string, width: nat)
    requires IsBinary(s)
    ensures IsBinary(ZFill(s, width)) && Value(ZFill(s, width)) == Value(s)
  {
    if |s| < width {
      LeadingZeros(width - |s|, s);
    }
  }
}

=== FILE: flat_codec.dfy ===
/** The flat LSB codec of the marketplace (src/lsb_watermarking/encode.py and
    decode.py): bit `i` of the watermark goes into bit 0 of flat sample `i`
    of the row-major, channel-interleaved raster, and is read back from there. */
module FlatCodec {

  import opened Arith
  import opened Seqs
  import opened Results
  import opened Lsb
  import opened Rasters
  import opened Paths

  /** A stored image: where it lives and the RGB array it decodes to. */
  datatype ImageFile = ImageFile(path: string, raster: Raster)

  predicate AllValid(files: seq<ImageFile>)
  {
    forall k :: 0 <= k < |files| ==> files[k].raster.Valid()
  }

  /** `height * width * channels`, the number of samples, as the capacity check computes it. */
  function Capacity(img: Raster): nat
  {
    img.height * img.width * img.channels
  }

  /** The array `lsb_encode_image` saves: the capacity check, then the write
      loop over the first `len(bits)` flat samples. */
  function EncodeImage(img: Raster, bits: seq<Bit>): (r: Result<Raster>)
    requires img.Valid()
    ensures r.Err? <==> |bits| > Capacity(img)
    ensures r.Err? ==> r.error == CapacityExceeded(|bits|, Capacity(img))
    ensures r.Ok? ==> r.value.Valid() && r.value.SameShape(img) && LsbOnlyChange(img, r.value)
    ensures r.Ok? ==> forall i :: 0 <= i < |bits| ==> r.value.samples[i] == SetLsb(img.samples[i], bits[i])
    ensures r.Ok? ==> forall i :: |bits| <= i < |img.samples| ==> r.value.samples[i] == img.samples[i]
  {
    if |bits| > Capacity(img) then Err(CapacityExceeded(|bits|, Capacity(img)))
    else
      var targets := Prefix(|bits|);
      assert forall i :: |bits| <= i < |img.samples| ==> i !in targets;
      WriteLsbsSets(img.samples, targets, bits);
      Ok(img.(samples := WriteLsbs(img.samples, targets, bits)))
  }

  /** Bit `i` lands in channel `i mod C` of pixel `((i div C) div W, (i div C) mod W)`. */
  lemma EncodedBitLocation(img: Raster, bits: seq<Bit>, i: nat)
    requires img.Valid() && |bits| <= Capacity(img) && i < |bits|
    ensures img.channels > 0 && img.width > 0
    ensures var s := FlatSlot(img, i);
            img.Holds(s) && EncodeImage(img, bits).value.Holds(s) &&
            EncodeImage(img, bits).value.At(s) == SetLsb(img.At(s), bits[i]) &&
            LsbOf(EncodeImage(img, bits).value.At(s)) == bits[i]
  {
    var out := EncodeImage(img, bits).value;
    FlatLayout(img, i);
    FlatLayout(out, i);
  }

  /** The bits `lsb_decode_image` returns: the capacity check, then bit 0 of
      each of the first `num_bits` flat samples. */
  function DecodeImage(img: Raster, numBits: nat): (r: Result<seq<Bit>>)
    requires img.Valid()
    ensures r.Err? <==> numBits > Capacity(img)
    ensures r.Err? ==> r.error == CapacityExceeded(numBits, Capacity(img))
    ensures r.Ok? ==> |r.value| == numBits
    ensures r.Ok? ==> forall i :: 0 <= i < numBits ==> r.value[i] == LsbOf(img.samples[i])
  {
    if numBits > Capacity(img) then Err(CapacityExceeded(numBits, Capacity(img)))
    else Ok(ReadLsbs(img.samples, Prefix(numBits)))
  }

  /** Decoding as many bits as were encoded gives them back; decoding more
      gives them back followed by the untouched samples' own bit 0. */
  lemma FlatRoundTrip(img: Raster, bits: seq<Bit>, numBits: nat)
    requires img.Valid() && |bits| <= numBits <= Capacity(img)
    ensures EncodeImage(img, bits).Ok?
    ensures DecodeImage(EncodeImage(img, bits).value, numBits).Ok?
    ensures DecodeImage(EncodeImage(img, bits).value, numBits).value[..|bits|] == bits
    ensures DecodeImage(EncodeImage(img, bits).value, numBits).value[|bits|..] ==
            DecodeImage(img, numBits).value[|bits|..]
  {
    var out := EncodeImage(img, bits).value;
    var got := DecodeImage(out, numBits).value;
    assert got[..|bits|] == bits;
    assert got[|bits|..] == DecodeImage(img, numBits).value[|bits|..];
  }

  /** Where `lsb_encode_batch` saves image `img_path`: under `output_dir` as
      `name + "_watermarked" + ext` when that is given and non-empty, else
      over the original. */
  function OutputPath(imagePath: string, outputDir: Option<string>): (r: string)
    ensures outputDir.None? || outputDir == Some("") ==> r == imagePath
    ensures outputDir.Some? && outputDir.value != "" ==>
              var name := WatermarkedName(Basename(imagePath));
              |r| >= |outputDir.value| + |name| &&
              r[..|outputDir.value|] == outputDir.value && r[|r| - |name|..] == name &&
              SplitExt(name).1 == SplitExt(Basename(imagePath)).1
    ensures outputDir.Some? && outputDir.value != "" ==>
              var dir := outputDir.value;
              var name := WatermarkedName(Basename(imagePath));
              r == if dir[|dir| - 1] == '/' then dir + name else dir + "/" + name
  {
    match outputDir
    case None => imagePath
    case Some(dir) =>
      if dir == "" then imagePath
      else
        var name := WatermarkedName(Basename(imagePath));
        assert |name| > 0 && name[0] != '/' by {
          var b := Basename(imagePath);
          assert name == SplitExt(name).0 + SplitExt(name).1;
          assert SplitExt(name).0 == SplitExt(b).0 + Marker;
          if |SplitExt(b).0| > 0 {
            assert name[0] == SplitExt(b).0[0] == b[0];
          } else {
            assert name[0] == Marker[0];
          }
        }
        JoinPath(dir, name)
  }

  /** `lsb_encode_batch(image_paths, watermark_messages, output_dir)`: one
      saved image per (path, message) pair of the zip, in order; the first
      message that does not fit raises. */
  function EncodeBatch(files: seq<ImageFile>, messages: seq<seq<Bit>>, outputDir: Option<string>)
    : (r: Result<seq<ImageFile>>)
    requires AllValid(files)
    ensures r.Ok? <==> forall k :: 0 <= k < Min(|files|, |messages|) ==>
                         |messages[k]| <= Capacity(files[k].raster)
    ensures r.Err? ==> exists k: nat :: FirstMisfit(files, messages, k) &&
                         r.error == CapacityExceeded(|messages[k]|, Capacity(files[k].raster))
    ensures r.Ok? ==> |r.value| == Min(|files|, |messages|)
    ensures r.Ok? ==> forall k :: 0 <= k < |r.value| ==>
                        r.value[k] == ImageFile(OutputPath(files[k].path, outputDir),
                                                EncodeImage(files[k].raster, messages[k]).value)
  {
    if |files| == 0 || |messages| == 0 then Ok([])
    else
      var first := EncodeImage(files[0].raster, messages[0]);
      var rest := EncodeBatch(files[1..], messages[1..], outputDir);
      if first.Err? then Err(first.error)
      else if rest.Err? then
        MisfitAfterFirst(files, messages);
        Err(rest.error)
      else Ok([ImageFile(OutputPath(files[0].path, outputDir), first.value)] + rest.value)
  }

  /** Message `k` is the first of the zip that does not fit its image. */
  predicate FirstMisfit(files: seq<ImageFile>, messages: seq<seq<Bit>>, k: nat)
  {
    k < Min(|files|, |messages|) && |messages[k]| > Capacity(files[k].raster) &&
    forall j :: 0 <= j < k ==> |messages[j]| <= Capacity(files[j].raster)
  }

  /** When the first pair fits, the first misfit of the rest is the first misfit of all. */
  lemma MisfitAfterFirst(files: seq<ImageFile>, messages: seq<seq<Bit>>)
    requires |files| > 0 && |messages| > 0 && |messages[0]| <= Capacity(files[0].raster)
    ensures forall k: nat :: FirstMisfit(files[1..], messages[1..], k) ==> FirstMisfit(files, messages, k + 1)
  {
    forall k: nat | FirstMisfit(files[1..], messages[1..], k)
      ensures FirstMisfit(files, messages, k + 1)
    {
      forall j | 0 <= j < k + 1
        ensures |messages[j]| <= Capacity(files[j].raster)
      {
        if j > 0 {
          assert messages[j] == messages[1..][j - 1] && files[j] == files[1..][j - 1];
        }
      }
    }
  }

  predicate AllRastersValid(images: seq<Raster>)
  {
    forall k :: 0 <= k < |images| ==> images[k].Valid()
  }

  /** Image `k` is the first one with fewer than `numBits` samples. */
  predicate FirstTooSmall(images: seq<Raster>, numBits: nat, k: nat)
  {
    k < |images| && numBits > Capacity(images[k]) &&
    forall j :: 0 <= j < k ==> numBits <= Capacity(images[j])
  }

  /** When the first image is large enough, the first small image of the rest is the first of all. */
  lemma TooSmallAfterFirst(images: seq<Raster>, numBits: nat)
    requires |images| > 0 && numBits <= Capacity(images[0])
    ensures forall k: nat :: FirstTooSmall(images[1..], numBits, k) ==> FirstTooSmall(images, numBits, k + 1)
  {
    forall k: nat | FirstTooSmall(images[1..], numBits, k)
      ensures FirstTooSmall(images, numBits, k + 1)
    {
      forall j | 0 <= j < k + 1
        ensures numBits <= Capacity(images[j])
      {
        if j > 0 {
          assert images[j] == images[1..][j - 1];
        }
      }
    }
  }

  /** `lsb_decode_batch(image_paths, num_bits)`: one decoded message per
      image, in input order; the first image that is too small raises. */
  function DecodeBatch(images: seq<Raster>, numBits: nat): (r: Result<seq<seq<Bit>>>)
    requires AllRastersValid(images)
    ensures r.Ok? <==> forall k :: 0 <= k < |images| ==> numBits <= Capacity(images[k])
    ensures r.Err? ==> exists k: nat :: FirstTooSmall(images, numBits, k) &&
                         r.error == CapacityExceeded(numBits, Capacity(images[k]))
    ensures r.Ok? ==> |r.value| == |images|
    ensures r.Ok? ==> forall k :: 0 <= k < |images| ==> r.value[k] == DecodeImage(images[k], numBits).value
  {
    if |images| == 0 then Ok([])
    else
      var first :- DecodeImage(images[0], numBits);
      TooSmallAfterFirst(images, numBits);
      var rest :- DecodeBatch(images[1..], numBits);
      Ok([first] + rest)
  }
}

=== FILE: keyed_decode.dfy ===
/** The keyed LSB extractor of the `lsb_wm` package (lsb_wm/lsb_wm/decode.py):
    the same carrier selects the same pixels, bit 0 of their channels is read
    back in the embedding order, and redundant copies are decided by majority. */
module KeyedDecode {

  import opened Arith
  import opened Seqs
  import opened Results
  import opened Lsb
  import opened Rasters
  import opened KeyedEncode

  // ---------------------------------------------------------------------
  // extract_bits
  // ---------------------------------------------------------------------

  /** `extract_bits(pixel_array, positions, channels, num_bits)` */
  function ExtractBits(img: Raster, positions: seq<Pos>, channels: seq<nat>, numBits: nat): (r: seq<Bit>)
    requires img.Valid()
    requires PixelsIn(positions, img.height, img.width)
    requires ChannelsBelow(channels, img.channels)
    ensures |r| == Min(numBits, |positions| * |channels|)
    ensures forall k :: 0 <= k < |r| ==> r[k] == LsbOf(img.At(TraversalSlot(positions, channels, k)))
  {
    var visited := Traversal(positions, channels, numBits);
    TraversalShape(positions, channels, numBits);
    ReadSlots(img, visited)
  }

  /** Extracting as many bits as were embedded, over the same pixels and
      channels, gives the embedded bits back. */
  lemma EmbedExtractRoundTrip(img: Raster, positions: seq<Pos>, bits: seq<Bit>, channels: seq<nat>)
    requires img.Valid()
    requires PixelsIn(positions, img.height, img.width)
    requires ChannelsBelow(channels, img.channels)
    requires Distinct(positions) && Distinct(channels)
    requires |bits| <= |positions| * |channels|
    ensures EmbedBits(img, positions, bits, channels).Ok?
    ensures ExtractBits(EmbedBits(img, positions, bits, channels).value, positions, channels, |bits|) == bits
  {
    var out := EmbedBits(img, positions, bits, channels).value;
    var got := ExtractBits(out, positions, channels, |bits|);
    forall k | 0 <= k < |bits|
      ensures got[k] == bits[k]
    {
      var s := TraversalSlot(positions, channels, k);
      assert out.At(s) == SetLsb(img.At(s), bits[k]);
    }
  }

  // ---------------------------------------------------------------------
  // majority_vote
  // ---------------------------------------------------------------------

  /** `np.sum(bits)`: the number of ones. */
  function Ones(bits: seq<Bit>): (n: nat)
    ensures n <= |bits|
  {
    if |bits| == 0 then 0 else bits[0] + Ones(bits[1..])
  }

  /** How many entries of `bits` differ from `b`. */
  function Flips(bits: seq<Bit>, b: Bit): (n: nat)
    ensures n <= |bits|
  {
    if |bits| == 0 then 0 else (if bits[0] == b then 0 else 1) + Flips(bits[1..], b)
  }

  /** The flips away from 1 are the zeros, the flips away from 0 the ones. */
  lemma {:induction false} FlipsCountsOnes(bits: seq<Bit>, b: Bit)
    ensures Flips(bits, b) == if b == 1 then |bits| - Ones(bits) else Ones(bits)
  {
    if |bits| > 0 {
      FlipsCountsOnes(bits[1..], b);
    }
  }

  /** A run of copies of `b` has no flips. */
  lemma {:induction false} NoFlips(bits: seq<Bit>, b: Bit)
    requires forall j :: 0 <= j < |bits| ==> bits[j] == b
    ensures Flips(bits, b) == 0
  {
    if |bits| > 0 {
      NoFlips(bits[1..], b);
    }
  }

  /** The vote of one group: 1 when its ones exceed half the redundancy
      (a true division, so a tie votes 0). */
  function MajorityBit(copies: seq<Bit>, redundancy: nat): (b: Bit)
    ensures b == 1 <==> 2 * Ones(copies) > redundancy
  {
    if (Ones(copies) as real) > (redundancy as real) / 2.0 then 1 else 0
  }

  /** Copies `i * redundancy .. i * redundancy + redundancy` of the redundant bits. */
  function Group(bits: seq<Bit>, redundancy: nat, i: nat): (g: seq<Bit>)
    requires redundancy > 0 && i < |bits| / redundancy
    ensures |g| == redundancy && i * redundancy + redundancy <= |bits|
    ensures forall j :: 0 <= j < redundancy ==> g[j] == bits[i * redundancy + j]
  {
    GroupInside(|bits|, redundancy, i);
    bits[i * redundancy .. i * redundancy + redundancy]
  }

  /** `majority_vote(bits_redundant, redundancy)`; a zero redundancy divides by zero. */
  function MajorityVote(bits: seq<Bit>, redundancy: nat): (r: Result<seq<Bit>>)
    ensures r.Err? <==> redundancy == 0
    ensures r.Err? ==> r.error == DivisionByZero
    ensures r.Ok? ==> |r.value| == |bits| / redundancy
    ensures r.Ok? ==> forall i :: 0 <= i < |r.value| ==>
                        r.value[i] == MajorityBit(Group(bits, redundancy, i), redundancy)
  {
    if redundancy == 0 then Err(DivisionByZero)
    else
      var n := |bits| / redundancy;
      Ok(seq(n, i requires 0 <= i < n => MajorityBit(Group(bits, redundancy, i), redundancy)))
  }

  /** A group with fewer than half of its copies flipped still votes for `b`. */
  lemma MajorityBitRecovers(copies: seq<Bit>, b: Bit, redundancy: nat)
    requires |copies| == redundancy
    requires 2 * Flips(copies, b) < redundancy
    ensures MajorityBit(copies, redundancy) == b
  {
    FlipsCountsOnes(copies, b);
  }

  /** A tie votes 0: with an even redundancy, half ones is not a majority. */
  lemma MajorityTieIsZero(copies: seq<Bit>, redundancy: nat)
    requires |copies| == redundancy && 2 * Ones(copies) == redundancy
    ensures MajorityBit(copies, redundancy) == 0
    ensures redundancy > 0 ==> Flips(copies, 1) == Flips(copies, 0)
  {
    FlipsCountsOnes(copies, 0);
    FlipsCountsOnes(copies, 1);
  }

  /** Majority voting corrects up to `(redundancy - 1) // 2` flipped copies in
      every group. */
  lemma MajorityVoteCorrects(noisy: seq<Bit>, message: seq<Bit>, redundancy: nat)
    requires redundancy >= 1 && |noisy| == |message| * redundancy
    requires forall i :: 0 <= i < |message| && i < |noisy| / redundancy ==>
               2 * Flips(Group(noisy, redundancy, i), message[i]) < redundancy
    ensures MajorityVote(noisy, redundancy) == Ok(message)
  {
    RadixDigits(|message|, 0, redundancy);
    var r := MajorityVote(noisy, redundancy).value;
    forall i | 0 <= i < |message|
      ensures r[i] == message[i]
    {
      MajorityBitRecovers(Group(noisy, redundancy, i), message[i], redundancy);
    }
    assert r == message;
  }

  /** Copy `j` of bit `i` sits at `i * redundancy + j` of the repeated bits. */
  lemma RepeatedBitAt(message: seq<Bit>, redundancy: nat, i: nat, j: nat)
    requires i < |message| && j < redundancy
    ensures i * redundancy + j < |message| * redundancy
    ensures RepeatedBit(message, redundancy, i * redundancy + j) == message[i]
  {
    RadixBound(i, |message|, j, redundancy);
    RadixDigits(i, j, redundancy);
  }

  /** Group `i` of `np.repeat(message, redundancy)` is `redundancy` copies of `message[i]`. */
  lemma RepeatGroup(message: seq<Bit>, redundancy: nat, i: nat)
    requires redundancy >= 1 && i < |message|
    ensures i < |Repeat(message, redundancy)| / redundancy
    ensures Flips(Group(Repeat(message, redundancy), redundancy, i), message[i]) == 0
  {
    var bits := Repeat(message, redundancy);
    RadixDigits(|message|, 0, redundancy);
    var g := Group(bits, redundancy, i);
    forall j | 0 <= j < redundancy
      ensures g[j] == message[i]
    {
      RepeatedBitAt(message, redundancy, i, j);
    }
    NoFlips(g, message[i]);
  }

  /** Majority voting undoes `np.repeat`. */
  lemma MajorityOfRepeat(message: seq<Bit>, redundancy: nat)
    requires redundancy >= 1
    ensures MajorityVote(Repeat(message, redundancy), redundancy) == Ok(message)
  {
    forall i | 0 <= i < |message|
      ensures i < |Repeat(message, redundancy)| / redundancy
      ensures Flips(Group(Repeat(message, redundancy), redundancy, i), message[i]) == 0
    {
      RepeatGroup(message, redundancy, i);
    }
    MajorityVoteCorrects(Repeat(message, redundancy), message, redundancy);
  }

  // ---------------------------------------------------------------------
  // compute_bit_accuracy
  // ---------------------------------------------------------------------

  /** `np.sum(a == b)` for arrays of one length. */
  function Agreements(a: seq<Bit>, b: seq<Bit>): (n: nat)
    requires |a| == |b|
    ensures n <= |a|
  {
    if |a| == 0 then 0 else (if a[0] == b[0] then 1 else 0) + Agreements(a[1..], b[1..])
  }

  /** Every position agrees exactly when the arrays are equal. */
  lemma {:induction false} AgreementsFull(a: seq<Bit>, b: seq<Bit>)
    requires |a| == |b|
    ensures Agreements(a, b) == |a| <==> a == b
  {
    if |a| > 0 {
      AgreementsFull(a[1..], b[1..]);
      if a[0] == b[0] && a[1..] == b[1..] {
        assert a == [a[0]] + a[1..] && b == [b[0]] + b[1..];
      }
    }
  }

  /** `compute_bit_accuracy(decoded, original)`: the share of agreeing bits
      over the common prefix, 0.0 when that prefix is empty. */
  function BitAccuracy(decoded: seq<Bit>, original: seq<Bit>): (acc: real)
    ensures 0.0 <= acc <= 1.0
    ensures acc == 1.0 <==>
              var n := Min(|decoded|, |original|); n > 0 && decoded[..n] == original[..n]
    ensures |decoded| == 0 || |original| == 0 ==> acc == 0.0
    ensures var n := Min(|decoded|, |original|);
            n > 0 ==> acc * (n as real) == Agreements(decoded[..n], original[..n]) as real
  {
    var n := Min(|decoded|, |original|);
    if n == 0 then 0.0
    else
      var correct := Agreements(decoded[..n], original[..n]);
      AgreementsFull(decoded[..n], original[..n]);
      MatchRatio(correct, n).value
  }

  // ---------------------------------------------------------------------
  // detect_0bit
  // ---------------------------------------------------------------------

  /** A float that is either NaN (from `0 / 0`) or a finite value. */
  datatype Ratio = NaN | Frac(value: real)

  /** `matches / total_bits` */
  function MatchRatio(matches: nat, total: nat): (r: Ratio)
    requires matches <= total
    ensures r.NaN? <==> total == 0
    ensures r.Frac? ==> 0.0 <= r.value <= 1.0
    ensures r.Frac? ==> (r.value == 1.0 <==> matches == total)
    ensures r.Frac? ==> r.value * (total as real) == matches as real
  {
    if total == 0 then NaN
    else
      var q := (matches as real) / (total as real);
      assert q * (total as real) == matches as real;
      Frac(q)
  }

  /** `ratio >= threshold`; a comparison with NaN is false. */
  predicate AtLeast(ratio: Ratio, threshold: real)
  {
    ratio.Frac? && ratio.value >= threshold
  }

  /** The dict `detect_0bit` returns. */
  datatype Detection = Detection(detected: bool, confidence: Ratio, patternMatch: Ratio)

  /** The `params` of `detect_0bit`. */
  datatype DetectParams = DetectParams(numPixels: nat, channels: seq<nat>, pattern: string, threshold: real)

  const DefaultDetectParams := DetectParams(1000, [0, 1, 2], "alternating", 0.7)

  /** `detect_0bit(image, carrier, params)`, with the image as its array. */
  function Detect0Bit(img: ArrayImage, carrier: Carrier, params: DetectParams,
                      choice: Sampler, randint: BitSource): (r: Result<Detection>)
    requires img.Valid() && IsSampler(choice) && IsBitSource(randint)
    requires ChannelsBelow(params.channels, ToRgb(img).channels)
    ensures r.Err? <==> !ValidSeed(CarrierSeed(carrier)) || !KnownPattern(params.pattern)
    ensures !ValidSeed(CarrierSeed(carrier)) ==> r == Err(InvalidSeed(CarrierSeed(carrier)))
    ensures ValidSeed(CarrierSeed(carrier)) && !KnownPattern(params.pattern) ==>
              r == Err(UnknownPattern(params.pattern))
    ensures r.Ok? ==> r.value.confidence == r.value.patternMatch
    ensures r.Ok? ==> (r.value.detected <==> AtLeast(r.value.patternMatch, params.threshold))
    ensures r.Ok? ==> (r.value.patternMatch.NaN? <==>
                        Min(params.numPixels, ToRgb(img).height * ToRgb(img).width) * |params.channels| == 0)
    ensures r.Ok? && r.value.patternMatch.Frac? ==> 0.0 <= r.value.patternMatch.value <= 1.0
    ensures r.Ok? ==>
              var rgb := ToRgb(img);
              var positions := SelectPixels(rgb.height, rgb.width, carrier, params.numPixels, choice).value;
              var total := |positions| * |params.channels|;
              var expected := PatternBits(params.pattern, total, carrier, randint).value;
              r.value.patternMatch ==
                MatchRatio(Agreements(ExtractBits(rgb, positions, params.channels, total), expected), total)
  {
    var rgb := ToRgb(img);
    var positions :- SelectPixels(rgb.height, rgb.width, carrier, params.numPixels, choice);
    var total := |positions| * |params.channels|;
    var extracted := ExtractBits(rgb, positions, params.channels, total);
    var expected :- PatternBits(params.pattern, total, carrier, randint);
    var ratio := MatchRatio(Agreements(extracted, expected), total);
    Ok(Detection(AtLeast(ratio, params.threshold), ratio, ratio))
  }

  /** Detecting with the parameters used to embed finds the whole pattern:
      a ratio of 1.0, so a detection at any threshold up to 1.0, unless no
      bit was embedded at all (then the ratio is NaN). */
  lemma ZeroBitRoundTrip(img: ArrayImage, carrier: Carrier, params: DetectParams,
                         choice: Sampler, randint: BitSource)
    requires img.Valid() && IsSampler(choice) && IsBitSource(randint)
    requires ChannelsBelow(params.channels, ToRgb(img).channels) && Distinct(params.channels)
    requires ValidSeed(CarrierSeed(carrier)) && KnownPattern(params.pattern)
    ensures var embedded := Embed0Bit(img, carrier, ZeroBitParams(params.numPixels, params.channels, params.pattern),
                                      choice, randint);
            embedded.Ok? &&
            var found := Detect0Bit(Cube(embedded.value), carrier, params, choice, randint);
            found.Ok? &&
            (found.value.patternMatch.Frac? ==> found.value.patternMatch.value == 1.0) &&
            (found.value.patternMatch.Frac? && params.threshold <= 1.0 ==> found.value.detected)
  {
    var rgb := ToRgb(img);
    var out := Embed0Bit(img, carrier, ZeroBitParams(params.numPixels, params.channels, params.pattern),
                         choice, randint).value;
    assert ToRgb(Cube(out)) == out;
    var positions := SelectPixels(rgb.height, rgb.width, carrier, params.numPixels, choice).value;
    var total := |positions| * |params.channels|;
    var pattern := PatternBits(params.pattern, total, carrier, randint).value;
    assert out == EmbedBits(rgb, positions, pattern, params.channels).value;
    EmbedExtractRoundTrip(rgb, positions, pattern, params.channels);
    AgreementsFull(pattern, pattern);
  }

  /** Zeros against `(i + phase) % 2` agree at every other position: on
      `(n + 1 - phase) / 2` of them. */
  lemma {:induction false} ZerosAgainstAlternating(a: seq<Bit>, b: seq<Bit>, phase: nat)
    requires |a| == |b| && phase <= 1
    requires forall i :: 0 <= i < |a| ==> a[i] == 0
    requires forall i :: 0 <= i < |b| ==> b[i] == (i + phase) % 2
    ensures Agreements(a, b) == (|a| + 1 - phase) / 2
  {
    if |a| > 0 {
      assert b[0] == phase;
      forall i | 0 <= i < |b[1..]|
        ensures b[1..][i] == (i + (1 - phase)) % 2
      {
        assert b[1..][i] == b[i + 1];
      }
      ZerosAgainstAlternating(a[1..], b[1..], 1 - phase);
    }
  }

  /** An even number of zero bits matches the alternating pattern on
      exactly half of the positions. */
  lemma HalfOfAlternating(a: seq<Bit>, b: seq<Bit>)
    requires |a| == |b| && |a| > 0 && |a| % 2 == 0
    requires forall i :: 0 <= i < |a| ==> a[i] == 0
    requires forall i :: 0 <= i < |b| ==> b[i] == i % 2
    ensures MatchRatio(Agreements(a, b), |a|) == Frac(0.5)
  {
    forall i | 0 <= i < |b|
      ensures b[i] == (i + 0) % 2
    {
    }
    ZerosAgainstAlternating(a, b, 0);
    var m := Agreements(a, b);
    assert m * 2 == |a|;
    var r := MatchRatio(m, |a|);
    HalfShare(r.value, |a| as real, m as real);
  }

  /** A share `x` of `n` that counts `m` with `n == 2 m` is one half. */
  lemma HalfShare(x: real, n: real, m: real)
    requires m > 0.0 && n == 2.0 * m && x * n == m
    ensures x == 0.5
  {
    var y := x - 0.5;
    assert y * n == 0.0;
    PositiveProduct(y, n);
    PositiveProduct(-y, n);
  }

  lemma PositiveProduct(a: real, b: real)
    ensures a > 0.0 && b > 0.0 ==> a * b > 0.0
  {
  }

  /** An image whose every sample has a clear bit 0 (a uniform gray 128, say)
      matches the alternating pattern on half of an even number of read bits,
      so a threshold above 0.5 does not report a watermark. */
  lemma ClearImageNotDetected(img: ArrayImage, carrier: Carrier, params: DetectParams,
                              choice: Sampler, randint: BitSource)
    requires img.Valid() && IsSampler(choice) && IsBitSource(randint)
    requires ChannelsBelow(params.channels, ToRgb(img).channels)
    requires forall s :: ToRgb(img).Holds(s) ==> LsbOf(ToRgb(img).At(s)) == 0
    requires ValidSeed(CarrierSeed(carrier)) && params.pattern == "alternating"
    requires var total := Min(params.numPixels, ToRgb(img).height * ToRgb(img).width) * |params.channels|;
             total > 0 && total % 2 == 0
    ensures var found := Detect0Bit(img, carrier, params, choice, randint);
            found.Ok? && found.value.patternMatch == Frac(0.5) &&
            (params.threshold > 0.5 ==> !found.value.detected)
  {
    var rgb := ToRgb(img);
    var positions := SelectPixels(rgb.height, rgb.width, carrier, params.numPixels, choice).value;
    var total := |positions| * |params.channels|;
    var extracted := ExtractBits(rgb, positions, params.channels, total);
    var expected := PatternBits(params.pattern, total, carrier, randint).value;
    forall k | 0 <= k < |extracted|
      ensures extracted[k] == 0
    {
      assert rgb.Holds(TraversalSlot(positions, params.channels, k));
    }
    HalfOfAlternating(extracted, expected);
  }

  /** The unmarked-image case of the package's tests: a 100 x 100 gray-128
      RGB image, 100 pixels over the three channels, threshold 0.7. */
  lemma GrayImageNotDetected(carrier: Carrier, choice: Sampler, randint: BitSource)
    requires IsSampler(choice) && IsBitSource(randint) && ValidSeed(CarrierSeed(carrier))
    ensures var gray := Cube(Raster(100, 100, 3, seq(100 * 100 * 3, _ => 128)));
            var found := Detect0Bit(gray, carrier, DetectParams(100, [0, 1, 2], "alternating", 0.7),
                                    choice, randint);
            found.Ok? && !found.value.detected
  {
    var gray := Cube(Raster(100, 100, 3, seq(100 * 100 * 3, _ => 128)));
    var params := DetectParams(100, [0, 1, 2], "alternating", 0.7);
    assert ToRgb(gray) == gray.raster;
    forall s | ToRgb(gray).Holds(s)
      ensures LsbOf(ToRgb(gray).At(s)) == 0
    {
    }
    ClearImageNotDetected(gray, carrier, params, choice, randint);
  }

  // ---------------------------------------------------------------------
  // extract_multibit
  // ---------------------------------------------------------------------

  /** `extract_multibit(image, carrier, params)`, with the image as its array. */
  function ExtractMultibit(img: ArrayImage, carrier: Carrier, params: MultiBitParams, choice: Sampler)
    : (r: Result<seq<Bit>>)
    requires img.Valid() && IsSampler(choice)
    requires ChannelsBelow(params.channels, ToRgb(img).channels)
    ensures params.numBits.None? ==> r == Err(MissingNumBits)
    ensures params.numBits.Some? && |params.channels| == 0 ==> r == Err(DivisionByZero)
    ensures params.numBits.Some? && |params.channels| > 0 && !ValidSeed(CarrierSeed(carrier)) ==>
              r == Err(InvalidSeed(CarrierSeed(carrier)))
    ensures (params.numBits.Some? && |params.channels| > 0 && ValidSeed(CarrierSeed(carrier)) &&
             params.redundancy == 0) ==> r == Err(DivisionByZero)
    ensures r.Ok? <==> params.numBits.Some? && |params.channels| > 0 && ValidSeed(CarrierSeed(carrier))
                       && params.redundancy > 0
    ensures r.Ok? && Fits(ToRgb(img), params.numBits.value, params.redundancy, params.channels) ==>
              |r.value| == params.numBits.value
    ensures r.Ok? ==> |r.value| <= params.numBits.value
    ensures r.Ok? ==>
              var rgb := ToRgb(img);
              var total := params.numBits.value * params.redundancy;
              var positions := SelectPixels(rgb.height, rgb.width, carrier, CeilDiv(total, |params.channels|), choice).value;
              r == MajorityVote(ExtractBits(rgb, positions, params.channels, total), params.redundancy)
  {
    if params.numBits.None? then Err(MissingNumBits)
    else
      var total := params.numBits.value * params.redundancy;
      var rgb := ToRgb(img);
      var perPixel := |params.channels|;
      if perPixel == 0 then Err(DivisionByZero)
      else
        var needed := CeilDiv(total, perPixel);
        var positions :- SelectPixels(rgb.height, rgb.width, carrier, needed, choice);
        var redundant := ExtractBits(rgb, positions, params.channels, total);
        var r := MajorityVote(redundant, params.redundancy);
        if params.redundancy == 0 then r
        else
          assert needed <= rgb.height * rgb.width ==> |redundant| == total;
          VoteLength(params.numBits.value, params.redundancy, |redundant|);
          r
  }

  /** At most `k * R` extracted copies vote at most `k` bits, and exactly
      `k * R` of them vote exactly `k`. */
  lemma VoteLength(k: nat, redundancy: nat, n: nat)
    requires redundancy > 0 && n <= k * redundancy
    ensures n / redundancy <= k
    ensures n == k * redundancy ==> n / redundancy == k
  {
    DivMono(n, k * redundancy, redundancy);
    RadixDigits(k, 0, redundancy);
  }

  /** Redundancy at work: when every group of `R` copies read at the
      selected pixels has fewer than `R / 2` bits flipped away from its
      message bit, `extract_multibit` still returns the message. */
  lemma NoisyExtractRecovers(img: ArrayImage, message: seq<Bit>, carrier: Carrier, params: MultiBitParams,
                             choice: Sampler)
    requires img.Valid() && IsSampler(choice)
    requires ChannelsBelow(params.channels, ToRgb(img).channels) && |params.channels| > 0
    requires params.numBits == Some(|message|) && params.redundancy >= 1 && ValidSeed(CarrierSeed(carrier))
    requires Fits(ToRgb(img), |message|, params.redundancy, params.channels)
    requires var rgb := ToRgb(img);
             var total := |message| * params.redundancy;
             var positions := SelectPixels(rgb.height, rgb.width, carrier, CeilDiv(total, |params.channels|), choice).value;
             var read := ExtractBits(rgb, positions, params.channels, total);
             forall i :: 0 <= i < |message| && i < |read| / params.redundancy ==>
               2 * Flips(Group(read, params.redundancy, i), message[i]) < params.redundancy
    ensures ExtractMultibit(img, carrier, params, choice) == Ok(message)
  {
    var rgb := ToRgb(img);
    var total := |message| * params.redundancy;
    var positions := SelectPixels(rgb.height, rgb.width, carrier, CeilDiv(total, |params.channels|), choice).value;
    var read := ExtractBits(rgb, positions, params.channels, total);
    MajorityVoteCorrects(read, message, params.redundancy);
  }

  /** Extracting with the parameters used to embed, from the image the
      embedder returned, recovers the message. */
  lemma MultibitRoundTrip(img: ArrayImage, message: seq<Bit>, carrier: Carrier, params: MultiBitParams,
                          choice: Sampler)
    requires img.Valid() && IsSampler(choice)
    requires ChannelsBelow(params.channels, ToRgb(img).channels) && Distinct(params.channels)
    requires |params.channels| > 0 && params.redundancy >= 1 && ValidSeed(CarrierSeed(carrier))
    requires Fits(ToRgb(img), |message|, params.redundancy, params.channels)
    ensures EmbedMultibit(img, message, carrier, params, choice).Ok?
    ensures ExtractMultibit(Cube(EmbedMultibit(img, message, carrier, params, choice).value), carrier,
                            params.(numBits := Some(|message|)), choice) == Ok(message)
  {
    var rgb := ToRgb(img);
    var out := EmbedMultibit(img, message, carrier, params, choice).value;
    assert ToRgb(Cube(out)) == out;
    var bits := Repeat(message, params.redundancy);
    var needed := CeilDiv(|bits|, |params.channels|);
    var positions := SelectPixels(rgb.height, rgb.width, carrier, needed, choice).value;
    assert out == EmbedBits(rgb, positions, bits, params.channels).value;
    EmbedExtractRoundTrip(rgb, positions, bits, params.channels);
    MajorityOfRepeat(message, params.redundancy);
  }
}

=== FILE: keyed_encode.dfy ===
/** The keyed LSB embedder of the `lsb_wm` package (lsb_wm/lsb_wm/encode.py):
    a carrier seeds a pseudo-random choice of pixels, and bits go into bit 0
    of the chosen pixels' channels, pixel by pixel, channel by channel. */
module KeyedEncode {

  import opened Arith
  import opened Seqs
  import opened Results
  import opened Lsb
  import opened Rasters

  // ---------------------------------------------------------------------
  // Carrier -> seed
  // ---------------------------------------------------------------------

  /** The key: an integer seed or an array of integers. */
  datatype Carrier = Scalar(value: int) | Vector(values: seq<int>)

  /** `2**31 - 1` */
  const SeedModulus: nat := 0x7FFF_FFFF
  /** The factor `1e6` the carrier sum is scaled by. */
  const CarrierScale: nat := 1_000_000
  /** The modulus of the `checksum` pattern seed. */
  const ChecksumModulus: nat := 256

  function Abs(x: int): nat
  {
    if x < 0 then -x else x
  }

  /** `np.sum(np.abs(values))` */
  function SumAbs(values: seq<int>): nat
  {
    if |values| == 0 then 0 else Abs(values[0]) + SumAbs(values[1..])
  }

  /** `np.sum(np.abs(carrier))` for either kind of carrier. */
  function AbsTotal(carrier: Carrier): nat
  {
    match carrier
    case Scalar(v) => Abs(v)
    case Vector(vs) => SumAbs(vs)
  }

  /** The seed `select_pixels` gives to `RandomState`. */
  function CarrierSeed(carrier: Carrier): int
  {
    match carrier
    case Scalar(v) => v
    case Vector(vs) => (SumAbs(vs) * CarrierScale) % SeedModulus
  }

  /** The seed of the `checksum` pattern generator. */
  function ChecksumSeed(carrier: Carrier): nat
  {
    (AbsTotal(carrier) * CarrierScale) % ChecksumModulus
  }

  /** `RandomState(seed)` accepts exactly the seeds in [0, 2**32). */
  predicate ValidSeed(seed: int)
  {
    0 <= seed < 0x1_0000_0000
  }

  /** An array carrier always gives a seed below 2**31 - 1 that RandomState accepts. */
  lemma VectorSeedInRange(values: seq<int>)
    ensures 0 <= CarrierSeed(Vector(values)) < SeedModulus
    ensures ValidSeed(CarrierSeed(Vector(values)))
  {
  }

  lemma SumAbsConcat(a: seq<int>, b: seq<int>)
    ensures SumAbs(a + b) == SumAbs(a) + SumAbs(b)
  {
    if |a| == 0 {
      assert a + b == b;
    } else {
      assert (a + b)[1..] == a[1..] + b;
      SumAbsConcat(a[1..], b);
    }
  }

  /** The seed ignores the order of the carrier's entries: rotating the array
      gives the same pixels. */
  lemma {:induction false} SeedIgnoresOrder(a: seq<int>, b: seq<int>)
    ensures CarrierSeed(Vector(a + b)) == CarrierSeed(Vector(b + a))
  {
    SumAbsConcat(a, b);
    SumAbsConcat(b, a);
  }

  function Negated(values: seq<int>): (r: seq<int>)
    ensures |r| == |values|
    ensures forall i :: 0 <= i < |r| ==> r[i] == -values[i]
  {
    seq(|values|, i requires 0 <= i < |values| => -values[i])
  }

  /** The seed ignores signs: negating every entry gives the same pixels. */
  lemma {:induction false} SeedIgnoresSign(values: seq<int>)
    ensures CarrierSeed(Vector(Negated(values))) == CarrierSeed(Vector(values))
  {
    SumAbsNegated(values);
  }

  lemma {:induction false} SumAbsNegated(values: seq<int>)
    ensures SumAbs(Negated(values)) == SumAbs(values)
  {
    if |values| > 0 {
      assert Negated(values)[1..] == Negated(values[1..]);
      SumAbsNegated(values[1..]);
    }
  }

  /** Because 10**6 is a multiple of 64, the `checksum` seed is a multiple of
      64: only four pattern generators (seeds 0, 64, 128, 192) ever occur. */
  lemma ChecksumSeedIsMultipleOf64(carrier: Carrier)
    ensures ChecksumSeed(carrier) % 64 == 0
    ensures ChecksumSeed(carrier) in {0, 64, 128, 192}
  {
    var y := AbsTotal(carrier) * 15625;
    assert AbsTotal(carrier) * CarrierScale == 64 * y;
    DivMod(y, 4);
    assert 64 * y == (y / 4) * 256 + 64 * (y % 4);
    RadixDigits(y / 4, 64 * (y % 4), 256);
  }

  // ---------------------------------------------------------------------
  // Pixel selection
  // ---------------------------------------------------------------------

  /** `RandomState(seed).choice(total, size=count, replace=False)`, a foreign
      function passed in as a value. */
  type Sampler = (nat, nat, nat) -> seq<nat>

  /** What `choice` without replacement promises: `count` distinct draws from
      `[0, total)`. */
  predicate SampleOk(drawn: seq<nat>, total: nat, count: nat)
  {
    |drawn| == count && Distinct(drawn) && forall i :: 0 <= i < |drawn| ==> drawn[i] < total
  }

  ghost predicate IsSampler(choice: Sampler)
  {
    forall seed, total, count :: count <= total ==> SampleOk(choice(seed, total, count), total, count)
  }

  predicate PixelsIn(positions: seq<Pos>, height: nat, width: nat)
  {
    forall p :: p in positions ==> p.row < height && p.col < width
  }

  predicate ChannelsBelow(channels: seq<nat>, count: nat)
  {
    forall c :: c in channels ==> c < count
  }

  /** Flat pixel index `i` as `(i // width, i % width)`. */
  function IndexToPos(i: nat, height: nat, width: nat): (p: Pos)
    requires i < height * width
    ensures p.row < height && p.col < width
  {
    DivBelow(i, height, width);
    Pos(i / width, i % width)
  }

  /** `select_pixels((height, width), carrier, num_pixels)` */
  function SelectPixels(height: nat, width: nat, carrier: Carrier, numPixels: nat, choice: Sampler)
    : (r: Result<seq<Pos>>)
    requires IsSampler(choice)
    ensures r.Err? <==> !ValidSeed(CarrierSeed(carrier))
    ensures r.Err? ==> r.error == InvalidSeed(CarrierSeed(carrier))
    ensures r.Ok? ==> |r.value| == Min(numPixels, height * width)
    ensures r.Ok? ==> PixelsIn(r.value, height, width)
    ensures r.Ok? ==> Distinct(r.value)
    ensures r.Ok? ==>
              var drawn := choice(CarrierSeed(carrier), height * width, Min(numPixels, height * width));
              forall k :: 0 <= k < |r.value| ==>
                width > 0 && r.value[k] == Pos(drawn[k] / width, drawn[k] % width)
  {
    var seed := CarrierSeed(carrier);
    if !ValidSeed(seed) then Err(InvalidSeed(seed))
    else
      var total := height * width;
      var count := Min(numPixels, total);
      var drawn := choice(seed, total, count);
      assert SampleOk(drawn, total, count);
      Ok(DrawnPositions(drawn, height, width))
  }

  /** Flat pixel indices as `(row, col)` pairs; distinct indices give
      distinct pixels. */
  function DrawnPositions(drawn: seq<nat>, height: nat, width: nat): (r: seq<Pos>)
    requires forall i :: 0 <= i < |drawn| ==> drawn[i] < height * width
    ensures |r| == |drawn| && PixelsIn(r, height, width)
    ensures forall k :: 0 <= k < |r| ==> width > 0 && r[k] == Pos(drawn[k] / width, drawn[k] % width)
    ensures Distinct(drawn) ==> Distinct(r)
  {
    var positions := seq(|drawn|, k requires 0 <= k < |drawn| => IndexToPos(drawn[k], height, width));
    assert Distinct(drawn) ==> Distinct(positions) by {
      if Distinct(drawn) {
        forall i, j | 0 <= i < j < |positions|
          ensures positions[i] != positions[j]
        {
          DivMod(drawn[i], width);
          DivMod(drawn[j], width);
        }
      }
    }
    positions
  }

  // ---------------------------------------------------------------------
  // Image normalisation
  // ---------------------------------------------------------------------

  /** `np.array(image)`: a 2-D array for a single-band image, a 3-D array otherwise. */
  datatype ArrayImage = Plane(height: nat, width: nat, values: seq<Sample>) | Cube(raster: Raster) {

    predicate Valid()
    {
      match this
      case Plane(h, w, vs) => |vs| == h * w
      case Cube(r) => r.Valid()
    }

    /** `array[row, col]` of a 2-D array. */
    function PlaneAt(p: Pos): Sample
      requires Plane? && Valid() && p.row < height && p.col < width
    {
      RadixBound(p.row, height, p.col, width);
      values[p.row * width + p.col]
    }
  }

  /** The "Ensure image is RGB" step: a 2-D array is stacked into three equal
      channels, a 4-channel array loses channel 3, anything else is kept. */
  function ToRgb(img: ArrayImage): (r: Raster)
    requires img.Valid()
    ensures r.Valid() && r.channels != 4
    ensures img.Plane? ==> r.height == img.height && r.width == img.width && r.channels == 3
    ensures img.Plane? ==> forall s :: r.Holds(s) ==> r.At(s) == img.PlaneAt(s.pixel)
    ensures img.Cube? && img.raster.channels == 4 ==>
              r.height == img.raster.height && r.width == img.raster.width && r.channels == 3
    ensures img.Cube? && img.raster.channels == 4 ==>
              forall s :: r.Holds(s) ==> img.raster.Holds(s) && r.At(s) == img.raster.At(s)
    ensures img.Cube? && img.raster.channels != 4 ==> r == img.raster
  {
    match img
    case Plane(h, w, vs) =>
      var r := Raster(h, w, 3, seq(h * w * 3, j requires 0 <= j < h * w * 3 => vs[j / 3]));
      assert forall s :: r.Holds(s) ==> r.At(s) == img.PlaneAt(s.pixel) by {
        forall s | r.Holds(s)
          ensures r.At(s) == img.PlaneAt(s.pixel)
        {
          RadixDigits(s.pixel.row * w + s.pixel.col, s.channel, 3);
        }
      }
      r
    case Cube(src) =>
      if src.channels == 4 then
        var n := src.height * src.width;
        var r := Raster(src.height, src.width, 3,
                        seq(n * 3, j requires 0 <= j < n * 3 => src.samples[(j / 3) * 4 + j % 3]));
        assert forall s :: r.Holds(s) ==> src.Holds(s) && r.At(s) == src.At(s) by {
          forall s | r.Holds(s)
            ensures src.Holds(s) && r.At(s) == src.At(s)
          {
            RadixDigits(s.pixel.row * src.width + s.pixel.col, s.channel, 3);
          }
        }
        r
      else src
  }

  // ---------------------------------------------------------------------
  // embed_bits
  // ---------------------------------------------------------------------

  /** The sample visited at step `k`: channel `channels[k % len(channels)]`
      of pixel `positions[k // len(channels)]`. */
  function TraversalSlot(positions: seq<Pos>, channels: seq<nat>, k: nat): (s: Slot)
    requires k < |positions| * |channels|
    ensures s.pixel in positions && s.channel in channels
  {
    DivBelow(k, |positions|, |channels|);
    Slot(positions[k / |channels|], channels[k % |channels|])
  }

  /** The samples the nested loop `for pos in positions: for channel in
      channels:` visits before it has consumed `n` bits. */
  function Traversal(positions: seq<Pos>, channels: seq<nat>, n: nat): (t: seq<Slot>)
    ensures forall k :: 0 <= k < |t| ==> t[k].pixel in positions && t[k].channel in channels
    decreases |positions|
  {
    if n == 0 || |positions| == 0 then []
    else
      var m := Min(n, |channels|);
      seq(m, j requires 0 <= j < m => Slot(positions[0], channels[j]))
      + Traversal(positions[1..], channels, n - m)
  }

  /** Step `k < C` visits channel `channels[k]` of the first pixel. */
  lemma TraversalSlotFirst(positions: seq<Pos>, channels: seq<nat>, k: nat)
    requires |positions| > 0 && k < |channels|
    ensures k < |positions| * |channels|
    ensures TraversalSlot(positions, channels, k) == Slot(positions[0], channels[k])
  {
    MulPred(|positions|, |channels|);
    RadixDigits(0, k, |channels|);
  }

  /** Step `k >= C` is step `k - C` of the traversal that skips the first pixel. */
  lemma TraversalSlotShift(positions: seq<Pos>, channels: seq<nat>, k: nat)
    requires |positions| > 0 && |channels| > 0
    requires |channels| <= k < |positions| * |channels|
    ensures k - |channels| < (|positions| - 1) * |channels|
    ensures TraversalSlot(positions[1..], channels, k - |channels|) == TraversalSlot(positions, channels, k)
  {
    var C := |channels|;
    MulPred(|positions|, C);
    DivSubOne(k, C);
    DivBelow(k, |positions|, C);
    assert k / C >= 1 by {
      DivMod(k - C, C);
      DivBelow(k - C, |positions| - 1, C);
      assert (k - C) / C >= 0;
    }
  }

  /** The loop stops after `min(n, len(positions) * len(channels))` samples,
      and step `k` visits `(positions[k // C], channels[k % C])`. */
  lemma {:induction false} TraversalShape(positions: seq<Pos>, channels: seq<nat>, n: nat)
    ensures |Traversal(positions, channels, n)| == Min(n, |positions| * |channels|)
    ensures forall k :: 0 <= k < |Traversal(positions, channels, n)| ==>
              Traversal(positions, channels, n)[k] == TraversalSlot(positions, channels, k)
    decreases |positions|
  {
    if n > 0 && |positions| > 0 {
      var t := Traversal(positions, channels, n);
      var C := |channels|;
      var m := Min(n, C);
      var head := seq(m, j requires 0 <= j < m => Slot(positions[0], channels[j]));
      var rest := Traversal(positions[1..], channels, n - m);
      TraversalShape(positions[1..], channels, n - m);
      assert t == head + rest;
      MulPred(|positions|, C);
      assert |t| == Min(n, |positions| * C);
      forall k | 0 <= k < |t|
        ensures t[k] == TraversalSlot(positions, channels, k)
      {
        if k < m {
          TraversalSlotFirst(positions, channels, k);
        } else {
          TraversalSlotShift(positions, channels, k);
          assert t[k] == rest[k - C];
        }
      }
    }
  }

  /** With no repeated pixel and no repeated channel, no sample is visited twice. */
  lemma TraversalDistinct(positions: seq<Pos>, channels: seq<nat>, n: nat)
    requires Distinct(positions) && Distinct(channels)
    ensures Distinct(Traversal(positions, channels, n))
  {
    var t := Traversal(positions, channels, n);
    TraversalShape(positions, channels, n);
    var C := |channels|;
    forall i, j | 0 <= i < j < |t|
      ensures t[i] != t[j]
    {
      DivBelow(i, |positions|, C);
      DivBelow(j, |positions|, C);
      if t[i] == t[j] {
        DivMod(i, C);
        DivMod(j, C);
      }
    }
  }

  /** `embed_bits(pixel_array, positions, bits, channels)` */
  function EmbedBits(img: Raster, positions: seq<Pos>, bits: seq<Bit>, channels: seq<nat>)
    : (r: Result<Raster>)
    requires img.Valid()
    requires PixelsIn(positions, img.height, img.width)
    requires ChannelsBelow(channels, img.channels)
    ensures r.Err? <==> |bits| > |positions| * |channels|
    ensures r.Err? ==> r.error == CapacityExceeded(|bits|, |positions| * |channels|)
    ensures r.Ok? ==> r.value.Valid() && r.value.SameShape(img) && LsbOnlyChange(img, r.value)
    ensures r.Ok? ==>
              forall s :: img.Holds(s) && s !in Traversal(positions, channels, |bits|) ==>
                r.value.At(s) == img.At(s)
    ensures r.Ok? && Distinct(positions) && Distinct(channels) ==>
              forall k :: 0 <= k < |bits| ==>
                r.value.At(TraversalSlot(positions, channels, k))
                == SetLsb(img.At(TraversalSlot(positions, channels, k)), bits[k])
  {
    var capacity := |positions| * |channels|;
    if |bits| > capacity then Err(CapacityExceeded(|bits|, capacity))
    else
      var visited := Traversal(positions, channels, |bits|);
      TraversalShape(positions, channels, |bits|);
      assert |visited| == |bits|;
      assert forall k :: 0 <= k < |visited| ==> img.Holds(visited[k]);
      assert Distinct(positions) && Distinct(channels) ==> Distinct(visited) by {
        if Distinct(positions) && Distinct(channels) {
          TraversalDistinct(positions, channels, |bits|);
        }
      }
      Ok(WriteSlots(img, visited, bits))
  }

  // ---------------------------------------------------------------------
  // Zero-bit patterns and embed_0bit
  // ---------------------------------------------------------------------

  /** `RandomState(seed).randint(0, 2, size=n)`, a foreign function passed in as a value. */
  type BitSource = (nat, nat) -> seq<Bit>

  ghost predicate IsBitSource(randint: BitSource)
  {
    forall seed, n :: |randint(seed, n)| == n
  }

  predicate KnownPattern(name: string)
  {
    name == "alternating" || name == "ones" || name == "checksum"
  }

  /** The reference bits of the zero-bit scheme, as both embed and detect build them. */
  function PatternBits(name: string, n: nat, carrier: Carrier, randint: BitSource): (r: Result<seq<Bit>>)
    requires IsBitSource(randint)
    ensures r.Err? <==> !KnownPattern(name)
    ensures r.Err? ==> r.error == UnknownPattern(name)
    ensures r.Ok? ==> |r.value| == n
    ensures name == "alternating" ==> forall i :: 0 <= i < n ==> r.value[i] == i % 2
    ensures name == "ones" ==> forall i :: 0 <= i < n ==> r.value[i] == 1
    ensures name == "checksum" ==> r.value == randint(ChecksumSeed(carrier), n)
  {
    if name == "alternating" then Ok(seq(n, i => i % 2))
    else if name == "ones" then Ok(seq(n, i => 1))
    else if name == "checksum" then Ok(randint(ChecksumSeed(carrier), n))
    else Err(UnknownPattern(name))
  }

  /** The `params` of `embed_0bit`. */
  datatype ZeroBitParams = ZeroBitParams(numPixels: nat, channels: seq<nat>, pattern: string)

  const DefaultZeroBitParams := ZeroBitParams(1000, [0, 1, 2], "alternating")

  /** `embed_0bit(image, carrier, params)`, with the image as its array. */
  function Embed0Bit(img: ArrayImage, carrier: Carrier, params: ZeroBitParams,
                     choice: Sampler, randint: BitSource): (r: Result<Raster>)
    requires img.Valid() && IsSampler(choice) && IsBitSource(randint)
    requires ChannelsBelow(params.channels, ToRgb(img).channels)
    ensures r.Err? <==> !ValidSeed(CarrierSeed(carrier)) || !KnownPattern(params.pattern)
    ensures !ValidSeed(CarrierSeed(carrier)) ==> r == Err(InvalidSeed(CarrierSeed(carrier)))
    ensures ValidSeed(CarrierSeed(carrier)) && !KnownPattern(params.pattern) ==>
              r == Err(UnknownPattern(params.pattern))
    ensures r.Ok? ==> r.value.Valid() && r.value.SameShape(ToRgb(img)) && LsbOnlyChange(ToRgb(img), r.value)
    ensures r.Ok? && Distinct(params.channels) ==>
              var rgb := ToRgb(img);
              var positions := SelectPixels(rgb.height, rgb.width, carrier, params.numPixels, choice).value;
              var pattern := PatternBits(params.pattern, |positions| * |params.channels|, carrier, randint).value;
              forall k :: 0 <= k < |pattern| ==>
                r.value.At(TraversalSlot(positions, params.channels, k))
                == SetLsb(rgb.At(TraversalSlot(positions, params.channels, k)), pattern[k])
  {
    var rgb := ToRgb(img);
    var positions :- SelectPixels(rgb.height, rgb.width, carrier, params.numPixels, choice);
    var total := |positions| * |params.channels|;
    var pattern :- PatternBits(params.pattern, total, carrier, randint);
    EmbedBits(rgb, positions, pattern, params.channels)
  }

  // ---------------------------------------------------------------------
  // Multi-bit embedding
  // ---------------------------------------------------------------------

  /** `[b] * n` */
  function Copies(b: Bit, n: nat): (r: seq<Bit>)
    ensures |r| == n
    ensures forall i :: 0 <= i < n ==> r[i] == b
  {
    seq(n, i => b)
  }

  /** Bit `i` of `np.repeat(message, redundancy)`: `message[i // redundancy]`. */
  function RepeatedBit(message: seq<Bit>, redundancy: nat, i: nat): Bit
    requires i < |message| * redundancy
  {
    DivBelow(i, |message|, redundancy);
    message[i / redundancy]
  }

  lemma RepeatedBitFirst(message: seq<Bit>, redundancy: nat, i: nat)
    requires |message| > 0 && i < redundancy
    ensures i < |message| * redundancy
    ensures RepeatedBit(message, redundancy, i) == message[0]
  {
    MulPred(|message|, redundancy);
    RadixDigits(0, i, redundancy);
  }

  lemma RepeatedBitShift(message: seq<Bit>, redundancy: nat, i: nat)
    requires |message| > 0 && redundancy > 0
    requires redundancy <= i < |message| * redundancy
    ensures i - redundancy < (|message| - 1) * redundancy
    ensures RepeatedBit(message[1..], redundancy, i - redundancy) == RepeatedBit(message, redundancy, i)
  {
    var R := redundancy;
    MulPred(|message|, R);
    DivSubOne(i, R);
    DivBelow(i, |message|, R);
    assert i / R >= 1 by {
      DivMod(i - R, R);
      DivBelow(i - R, |message| - 1, R);
      assert (i - R) / R >= 0;
    }
  }

  /** `np.repeat(message, redundancy)`: each bit `redundancy` times in place. */
  function Repeat(message: seq<Bit>, redundancy: nat): (r: seq<Bit>)
    ensures |r| == |message| * redundancy
    ensures forall i :: 0 <= i < |r| ==> r[i] == RepeatedBit(message, redundancy, i)
  {
    if |message| == 0 then []
    else
      var rest := Repeat(message[1..], redundancy);
      var r := Copies(message[0], redundancy) + rest;
      MulPred(|message|, redundancy);
      assert forall i :: 0 <= i < |r| ==> r[i] == RepeatedBit(message, redundancy, i) by {
        forall i | 0 <= i < |r|
          ensures r[i] == RepeatedBit(message, redundancy, i)
        {
          if i < redundancy {
            RepeatedBitFirst(message, redundancy, i);
          } else {
            RepeatedBitShift(message, redundancy, i);
          }
        }
      }
      r
  }

  /** The `params` of `embed_multibit` and `extract_multibit`. */
  datatype MultiBitParams = MultiBitParams(numBits: Option<nat>, redundancy: nat, channels: seq<nat>)

  /** Whether `k` message bits at the given redundancy fit in the image. */
  predicate Fits(rgb: Raster, k: nat, redundancy: nat, channels: seq<nat>)
    requires |channels| > 0
  {
    CeilDiv(k * redundancy, |channels|) <= rgb.height * rgb.width
  }

  /** `embed_multibit(image, message, carrier, params)`, with the image as its
      array; the PSNR report is left out. */
  function EmbedMultibit(img: ArrayImage, message: seq<Bit>, carrier: Carrier, params: MultiBitParams,
                         choice: Sampler): (r: Result<Raster>)
    requires img.Valid() && IsSampler(choice)
    requires ChannelsBelow(params.channels, ToRgb(img).channels)
    ensures |params.channels| == 0 ==> r == Err(DivisionByZero)
    ensures |params.channels| > 0 && !Fits(ToRgb(img), |message|, params.redundancy, params.channels) ==>
              r == Err(CapacityExceeded(CeilDiv(|message| * params.redundancy, |params.channels|),
                                        ToRgb(img).height * ToRgb(img).width))
    ensures r.Ok? <==> |params.channels| > 0 && Fits(ToRgb(img), |message|, params.redundancy, params.channels)
                       && ValidSeed(CarrierSeed(carrier))
    ensures r.Ok? ==> r.value.Valid() && r.value.SameShape(ToRgb(img)) && LsbOnlyChange(ToRgb(img), r.value)
    ensures r.Ok? && Distinct(params.channels) ==>
              var rgb := ToRgb(img);
              var bits := Repeat(message, params.redundancy);
              var positions := SelectPixels(rgb.height, rgb.width, carrier, CeilDiv(|bits|, |params.channels|), choice).value;
              forall k :: 0 <= k < |bits| ==>
                r.value.At(TraversalSlot(positions, params.channels, k))
                == SetLsb(rgb.At(TraversalSlot(positions, params.channels, k)), bits[k])
  {
    var bits := Repeat(message, params.redundancy);
    var rgb := ToRgb(img);
    var perPixel := |params.channels|;
    if perPixel == 0 then Err(DivisionByZero)
    else
      var needed := CeilDiv(|bits|, perPixel);
      var available := rgb.height * rgb.width;
      if needed > available then Err(CapacityExceeded(needed, available))
      else
        var positions :- SelectPixels(rgb.height, rgb.width, carrier, needed, choice);
        EmbedBits(rgb, positions, bits, params.channels)
  }
}

=== FILE: lsb.dfy ===
/** Samples, bits and the least-significant-bit write/read primitive that
    both codecs use: write a bit into bit 0 of each target sample in order,
    and read bit 0 back. */
module Lsb {

  import opened Seqs

  /** One uint8 sample of a raster. */
  type Sample = bv8

  /** A message or pattern bit, 0 or 1. */
  type Bit = b: nat | b <= 1

  /** `s & 1` */
  function LsbOf(s: Sample): Bit
  {
    if s & 1 == 1 then 1 else 0
  }

  /** `(s & 0xFE) | b`: bit 0 becomes `b`, the upper seven bits stay. */
  function SetLsb(s: Sample, b: Bit): (r: Sample)
    ensures LsbOf(r) == b
    ensures r & 0xFE == s & 0xFE
  {
    (s & 0xFE) | (if b == 1 then 1 else 0)
  }

  /** Two samples that differ at most in bit 0. */
  predicate SameUpperBits(a: Sample, b: Sample)
  {
    a & 0xFE == b & 0xFE
  }

  /** Writes `bits[k]` into bit 0 of `samples[targets[k]]`, for k = 0, 1, ...
      in that order (a later write to the same target wins). */
  function WriteLsbs(samples: seq<Sample>, targets: seq<nat>, bits: seq<Bit>): (r: seq<Sample>)
    requires |targets| == |bits|
    requires forall k :: 0 <= k < |targets| ==> targets[k] < |samples|
    ensures |r| == |samples|
    ensures forall j :: 0 <= j < |r| ==> SameUpperBits(r[j], samples[j])
    ensures forall j :: 0 <= j < |r| && j !in targets ==> r[j] == samples[j]
    decreases |targets|
  {
    if |targets| == 0 then samples
    else
      var t := targets[0];
      assert forall j :: j in targets[1..] ==> j in targets;
      WriteLsbs(samples[t := SetLsb(samples[t], bits[0])], targets[1..], bits[1..])
  }

  /** With no target written twice, each target ends up holding its own bit. */
  lemma {:induction false} WriteLsbsSets(samples: seq<Sample>, targets: seq<nat>, bits: seq<Bit>)
    requires |targets| == |bits|
    requires forall k :: 0 <= k < |targets| ==> targets[k] < |samples|
    requires Distinct(targets)
    ensures forall k :: 0 <= k < |targets| ==>
              WriteLsbs(samples, targets, bits)[targets[k]] == SetLsb(samples[targets[k]], bits[k])
    decreases |targets|
  {
    if |targets| > 0 {
      var t := targets[0];
      var rest := targets[1..];
      var first := samples[t := SetLsb(samples[t], bits[0])];
      DistinctTail(targets);
      WriteLsbsSets(first, rest, bits[1..]);
      var r := WriteLsbs(first, rest, bits[1..]);
      forall k | 0 < k < |targets|
        ensures r[targets[k]] == SetLsb(samples[targets[k]], bits[k])
      {
        assert targets[k] == rest[k - 1] && targets[k] != t;
      }
    }
  }

  /** Bit 0 of `samples[targets[k]]`, for each k in order. */
  function ReadLsbs(samples: seq<Sample>, targets: seq<nat>): (r: seq<Bit>)
    requires forall k :: 0 <= k < |targets| ==> targets[k] < |samples|
    ensures |r| == |targets|
  {
    seq(|targets|, k requires 0 <= k < |targets| => LsbOf(samples[targets[k]]))
  }

  /** Reading the targets just written gives back the bits written, as long
      as no target is written twice. */
  lemma ReadAfterWrite(samples: seq<Sample>, targets: seq<nat>, bits: seq<Bit>)
    requires |targets| == |bits|
    requires forall k :: 0 <= k < |targets| ==> targets[k] < |samples|
    requires Distinct(targets)
    ensures ReadLsbs(WriteLsbs(samples, targets, bits), targets) == bits
  {
    WriteLsbsSets(samples, targets, bits);
  }

  /** The first `n` flat indices, `range(n)`. */
  function Prefix(n: nat): (r: seq<nat>)
    ensures |r| == n
    ensures forall k :: 0 <= k < n ==> r[k] == k
    ensures Distinct(r)
  {
    seq(n, k => k)
  }
}

=== FILE: marketplace.dfy ===
/** The marketplace's watermark workflow (src/lsb_watermarking/main_multibit.py):
    an (owner id, buyer id) pair becomes a 12-digit binary message that the
    flat codec writes into every image, and is parsed back from the first 12
    decoded bits. */
module Marketplace {

  import opened Arith
  import opened Seqs
  import opened Results
  import opened Lsb
  import opened Rasters
  import opened Binary
  import opened Messages
  import opened Paths
  import opened FlatCodec

  /** `self.num_bits`: 6 bits of owner id and 6 bits of buyer id. */
  const NumBits: nat := 12
  const IdBits: nat := 6

  // ---------------------------------------------------------------------
  // set_watermark
  // ---------------------------------------------------------------------

  /** `bin(id)[2:].zfill(8)[2:]`, as written. Below 256 this is the low six
      bits of the id; from 256 on it keeps all but the two leading digits. */
  function FormatIdAsWritten(id: nat): (s: string)
    ensures IsBinary(s) && |s| == Max(|Bin(id)|, 8) - 2
  {
    ZFillKeepsValue(Bin(id), 8);
    ZFill(Bin(id), 8)[2..]
  }

  /** The six-digit field of an id: its last six binary digits, what the
      "pad to 8 bits, then take last 6 bits" step intends. */
  function FormatId(id: nat): (s: string)
    ensures IsBinary(s) && |s| == IdBits
    ensures Value(s) == id % 64
  {
    ValueOfBitsOf(id, IdBits);
    assert Pow2(IdBits) == 64;
    BitsOf(id, IdBits)
  }

  /** Below 256 the code as written produces exactly the six-digit field. */
  lemma FormatIdAgrees(id: nat)
    requires id < 256
    ensures FormatIdAsWritten(id) == FormatId(id)
  {
    assert Pow2(8) == 256;
    ZFillBin(id, 8);
    BitsOfSplit(id, 2, 6);
  }

  /** The watermark line `set_watermark` writes, as written. */
  function SetWatermarkAsWritten(ownerId: nat, buyerId: nat): string
  {
    FormatIdAsWritten(ownerId) + FormatIdAsWritten(buyerId)
  }

  /** For ids below 256 the line as written is the corrected one. */
  lemma SetWatermarkAgrees(ownerId: nat, buyerId: nat)
    requires ownerId < 256 && buyerId < 256
    ensures SetWatermarkAsWritten(ownerId, buyerId) == SetWatermark(ownerId, buyerId)
    ensures |SetWatermarkAsWritten(ownerId, buyerId)| == NumBits
  {
    FormatIdAgrees(ownerId);
    FormatIdAgrees(buyerId);
  }

  /** The watermark line `set_watermark(owner_id, buyer_id)` is meant to
      write: the owner's six-bit field followed by the buyer's. For ids below
      256 it is the line the code writes (`SetWatermarkAgrees`). */
  function SetWatermark(ownerId: nat, buyerId: nat): (line: string)
    ensures IsBinary(line) && |line| == NumBits
    ensures line[..IdBits] == FormatId(ownerId) && line[IdBits..] == FormatId(buyerId)
  {
    FormatId(ownerId) + FormatId(buyerId)
  }

  // ---------------------------------------------------------------------
  // decode_watermark / extract_watermark
  // ---------------------------------------------------------------------

  /** The digit string `decode_watermark` makes of a decoded bit array: '0' or '1' per bit. */
  function BitString(bits: seq<Bit>): (s: string)
    ensures IsBinary(s) && |s| == |bits|
    ensures NumeralBits(s) == bits
  {
    seq(|bits|, i requires 0 <= i < |bits| => Digit(bits[i]))
  }

  /** Reading a digit string's bits and writing them out again gives it back. */
  lemma BitStringOfNumeral(s: string)
    requires IsBinary(s)
    ensures BitString(NumeralBits(s)) == s
  {
    var t := BitString(NumeralBits(s));
    forall i | 0 <= i < |s|
      ensures t[i] == s[i]
    {
      assert Digit(DigitValue(s[i])) == s[i];
    }
  }

  /** A text-mode message written out as digits reads back, through
      `binary_to_string`, as its line padded with ' ' to the longest line. */
  lemma TextMessageRoundTrip(lines: seq<string>, j: nat)
    requires j < |lines| && Latin1(lines[j])
    ensures BinaryToString(BitString(TextModeMessages(lines)[j])) ==
            Ok(PadRight(lines[j], MaxLength(lines), ' '))
  {
    var padded := PadRight(lines[j], MaxLength(lines), ' ');
    PaddedLength(lines[j], MaxLength(lines));
    BitStringOfNumeral(StringToBinary(padded));
    BinaryRoundTrip(padded);
  }

  /** `decode_watermark()` over the images found: an empty list when there
      are none, else the first 12 flat bits of each image as a digit string. */
  function DecodeWatermark(images: seq<Raster>): (r: Result<seq<string>>)
    requires AllRastersValid(images)
    ensures r.Err? <==> exists k :: 0 <= k < |images| && Capacity(images[k]) < NumBits
    ensures r.Ok? ==> |r.value| == |images|
    ensures r.Ok? ==> forall k :: 0 <= k < |images| ==>
                        |r.value[k]| == NumBits && IsBinary(r.value[k]) && NumeralBits(r.value[k]) == DecodeImage(images[k], NumBits).value
  {
    if |images| == 0 then Ok([])
    else
      var msgs :- DecodeBatch(images, NumBits);
      Ok(seq(|msgs|, k requires 0 <= k < |msgs| => BitString(msgs[k])))
  }

  /** `extract_watermark`'s parsing of the decoded strings into
      `(owner_id, buyer_id)`. */
  function ParseWatermark(wm: seq<string>): (r: Result<(nat, nat)>)
    ensures |wm| == 0 ==> r == Err(DecodeFailed)
    ensures |wm| > 0 && |wm[0]| < NumBits ==> r == Err(WatermarkTooShort(|wm[0]|))
    ensures |wm| > 0 && |wm[0]| >= NumBits ==> (r.Ok? <==> IsBinary(wm[0][..NumBits]))
    ensures r.Ok? ==> r.value.0 < 64 && r.value.1 < 64
    ensures r.Ok? ==> BitsOf(r.value.0, IdBits) == wm[0][..IdBits] &&
                      BitsOf(r.value.1, IdBits) == wm[0][IdBits..NumBits]
  {
    if |wm| == 0 then Err(DecodeFailed)
    else
      var s := wm[0];
      if |s| < NumBits then Err(WatermarkTooShort(|s|))
      else
        assert IsBinary(s[..NumBits]) <==> IsBinary(s[..IdBits]) && IsBinary(s[IdBits..NumBits]) by {
          assert forall i :: 0 <= i < IdBits ==> s[..NumBits][i] == s[..IdBits][i];
          assert forall i :: IdBits <= i < NumBits ==> s[..NumBits][i] == s[IdBits..NumBits][i - IdBits];
        }
        assert Pow2(IdBits) == 64;
        var oid :- ParseBin(s[..IdBits]);
        var bid :- ParseBin(s[IdBits..NumBits]);
        Ok((oid, bid))
  }

  /** Parsing a formatted watermark gives both ids modulo 64. */
  lemma ParseFormatRoundTrip(ownerId: nat, buyerId: nat)
    ensures ParseWatermark([SetWatermark(ownerId, buyerId)]) == Ok((ownerId % 64, buyerId % 64))
  {
    var line := SetWatermark(ownerId, buyerId);
    assert line[..NumBits] == line;
    var r := ParseWatermark([line]).value;
    BitsOfValue(line[..IdBits]);
    BitsOfValue(line[IdBits..NumBits]);
    assert Pow2(IdBits) == 64;
    ValueInjective(BitsOf(r.0, IdBits), FormatId(ownerId));
    ValueInjective(BitsOf(r.1, IdBits), FormatId(buyerId));
    ValueOfBitsOf(r.0, IdBits);
    ValueOfBitsOf(r.1, IdBits);
    ModBelow(r.0, 64);
    ModBelow(r.1, 64);
  }

  /** The code as written loses the buyer id once the owner id reaches 256:
      the owner field grows to seven digits and the 12 decoded bits end one
      digit early. Owner 256 with buyer 1 comes back as (0, 0), not (0, 1). */
  lemma LongOwnerIdShiftsBuyer()
    ensures |FormatIdAsWritten(256)| == 7
    ensures |SetWatermarkAsWritten(256, 1)| == 13
    ensures ParseWatermark([SetWatermarkAsWritten(256, 1)[..NumBits]]) == Ok((0, 0))
    ensures ParseWatermark([SetWatermark(256, 1)]) == Ok((0, 1))
  {
    FormatId256AsWritten();
    FormatIdAgrees(1);
    assert FormatId(1) == "000001";
    var line := SetWatermarkAsWritten(256, 1)[..NumBits];
    assert line == "000000000000";
    ParseZeros();
    ParseFormatRoundTrip(256, 1);
  }

  /** `bin(256)[2:].zfill(8)[2:]` is seven zeros. */
  lemma FormatId256AsWritten()
    ensures FormatIdAsWritten(256) == "0000000"
  {
    FormatIdAsWrittenWide(256);
    assert Pow2(7) == 128;
    ValueOfBitsOf(256, 7);
    AllZeros(7);
    ValueInjective(BitsOf(256, 7), Zeros(7));
    assert Zeros(7) == "0000000";
  }

  /** From 256 to 511 the code as written yields the low seven bits, one
      digit more than the field holds. */
  lemma FormatIdAsWrittenWide(id: nat)
    requires 256 <= id < 512
    ensures FormatIdAsWritten(id) == BitsOf(id, 7)
  {
    BinWide(id);
    assert ZFill(Bin(id), 8) == Bin(id);
    BitsOfSplit(id, 2, 7);
  }

  /** `bin(id)[2:]` has nine digits from 256 to 511. */
  lemma BinWide(id: nat)
    requires 256 <= id < 512
    ensures Bin(id) == BitsOf(id, 9)
  {
    var s := Bin(id);
    assert Pow2(8) == 256 && Pow2(9) == 512;
    ValueBelow(s);
    if |s| <= 8 {
      Pow2Mono(|s|, 8);
    }
    BinLength(id, 9);
    ZFillBin(id, 9);
    assert ZFill(s, 9) == s;
  }

  lemma ParseZeros()
    ensures ParseWatermark(["000000000000"]) == Ok((0, 0))
  {
    var r := ParseWatermark(["000000000000"]).value;
    assert BitsOf(r.0, IdBits) == "000000" == BitsOf(r.1, IdBits);
    ValueOfBitsOf(r.0, IdBits);
    ValueOfBitsOf(r.1, IdBits);
    assert Zeros(IdBits) == "000000";
    AllZeros(IdBits);
    ModBelow(r.0, 64);
    ModBelow(r.1, 64);
  }

  /** `extract_watermark(img_filepath)` with the file moves left out: decode
      the one image, then parse. */
  function ExtractWatermark(img: Raster): (r: Result<(nat, nat)>)
    requires img.Valid()
    ensures Capacity(img) < NumBits ==> r == Err(CapacityExceeded(NumBits, Capacity(img)))
    ensures Capacity(img) >= NumBits ==> r.Ok?
    ensures r.Ok? ==> r.value.0 < 64 && r.value.1 < 64
    ensures r.Ok? ==> BitsOf(r.value.0, IdBits) + BitsOf(r.value.1, IdBits) ==
                      BitString(DecodeImage(img, NumBits).value)
  {
    var wm :- DecodeWatermark([img]);
    var r := ParseWatermark(wm);
    assert r.Ok? ==> BitsOf(r.value.0, IdBits) + BitsOf(r.value.1, IdBits) ==
                     BitString(DecodeImage(img, NumBits).value) by {
      if r.Ok? {
        var s := wm[0];
        BitStringOfNumeral(s);
        assert s[..IdBits] + s[IdBits..NumBits] == s;
      }
    }
    r
  }

  // ---------------------------------------------------------------------
  // watermark
  // ---------------------------------------------------------------------

  /** The "ensure we have enough messages" step: fewer messages than images
      are tiled (`np.tile`) up to the image count; none at all divides by zero. */
  function TileMessages(msgs: seq<seq<Bit>>, count: nat): (r: Result<seq<seq<Bit>>>)
    ensures r.Err? <==> |msgs| == 0 && count > 0
    ensures r.Err? ==> r.error == DivisionByZero
    ensures r.Ok? ==> |r.value| == Max(|msgs|, count)
    ensures r.Ok? ==> forall j :: 0 <= j < |r.value| ==> r.value[j] == msgs[j % |msgs|]
  {
    if |msgs| >= count then
      assert forall j :: 0 <= j < |msgs| ==> j % |msgs| == j by {
        forall j | 0 <= j < |msgs| {
          ModBelow(j, |msgs|);
        }
      }
      Ok(msgs)
    else if |msgs| == 0 then Err(DivisionByZero)
    else Ok(CycleTo(msgs, count))
  }

  /** `watermark()` with the messages read from the message file: load N
      messages for the N images found, tile them, and encode each image into
      `<output_dir>/imgs`. The random-message branch is left out. */
  function Watermark(files: seq<ImageFile>, lines: seq<string>, msgType: string, outputDir: string)
    : (r: Result<seq<ImageFile>>)
    requires AllValid(files)
    ensures |files| == 0 ==> r == Ok([])
    ensures r.Ok? && |files| > 0 ==> |r.value| == |files|
    ensures |files| > 0 && |lines| == 0 ==> r == Err(DivisionByZero)
    ensures |files| > 0 ==>
              var loaded := LoadMessages(lines, msgType, |files|);
              (r.Ok? <==> |lines| > 0 && loaded.Ok? &&
                          forall k :: 0 <= k < |files| ==> |loaded.value[k]| <= Capacity(files[k].raster))
    ensures |files| > 0 && LoadMessages(lines, msgType, |files|).Err? ==>
              r == Err(LoadMessages(lines, msgType, |files|).error)
    ensures r.Ok? && |files| > 0 ==>
              var loaded := LoadMessages(lines, msgType, |files|).value;
              forall k :: 0 <= k < |files| ==>
                r.value[k] == ImageFile(OutputPath(files[k].path, Some(JoinPath(outputDir, "imgs"))),
                                        EncodeImage(files[k].raster, loaded[k]).value)
  {
    if |files| == 0 then Ok([])
    else
      var loaded :- LoadMessages(lines, msgType, |files|);
      var msgs :- TileMessages(loaded, |files|);
      EncodeBatch(files, msgs, Some(JoinPath(outputDir, "imgs")))
  }

  /** End to end: an image watermarked with `set_watermark(owner, buyer)`
      yields `(owner mod 64, buyer mod 64)` on extraction, as long as it holds
      at least 12 samples. */
  lemma MarketplaceRoundTrip(img: Raster, path: string, ownerId: nat, buyerId: nat, outputDir: string)
    requires img.Valid() && Capacity(img) >= NumBits
    ensures var out := Watermark([ImageFile(path, img)], [SetWatermark(ownerId, buyerId)], "bit", outputDir);
            out.Ok? && |out.value| == 1 && out.value[0].raster.Valid() &&
            ExtractWatermark(out.value[0].raster) == Ok((ownerId % 64, buyerId % 64))
  {
    var line := SetWatermark(ownerId, buyerId);
    var m := NumeralBits(line);
    WatermarkOne(img, path, line, outputDir);
    DecodeMarked(img, m);
    BitStringOfNumeral(line);
    ParseFormatRoundTrip(ownerId, buyerId);
  }

  /** One image and one binary line: the image comes back carrying the line's bits. */
  lemma WatermarkOne(img: Raster, path: string, line: string, outputDir: string)
    requires img.Valid() && IsBinary(line) && |line| <= Capacity(img)
    ensures EncodeImage(img, NumeralBits(line)).Ok?
    ensures Watermark([ImageFile(path, img)], [line], "bit", outputDir) ==
            Ok([ImageFile(OutputPath(path, Some(JoinPath(outputDir, "imgs"))),
                          EncodeImage(img, NumeralBits(line)).value)])
  {
    var msgs := [NumeralBits(line)];
    LoadWatermarkLine(line);
    assert TileMessages(msgs, 1) == Ok(msgs);
    EncodeOne(ImageFile(path, img), msgs[0], Some(JoinPath(outputDir, "imgs")));
  }

  lemma EncodeOne(file: ImageFile, m: seq<Bit>, outputDir: Option<string>)
    requires file.raster.Valid() && |m| <= Capacity(file.raster)
    ensures EncodeImage(file.raster, m).Ok?
    ensures EncodeBatch([file], [m], outputDir) ==
            Ok([ImageFile(OutputPath(file.path, outputDir), EncodeImage(file.raster, m).value)])
  {
    var r := EncodeBatch([file], [m], outputDir);
    assert Min(|[file]|, |[m]|) == 1;
    assert r.Ok?;
    var f := r.value[0];
    assert r.value == [f];
  }

  /** Bit mode reads a binary line as its digits. */
  lemma LoadWatermarkLine(line: string)
    requires IsBinary(line)
    ensures LoadMessages([line], "bit", 1) == Ok([NumeralBits(line)])
  {
    assert MaxLength([line]) == |line|;
    assert forall i :: 0 <= i < |line| ==> IsDecimalDigit(line[i]);
    var m := BitModeMessages([line]).value[0];
    var r := LoadMessages([line], "bit", 1).value;
    assert |r| == 1 && r[0] == m;
    forall i | 0 <= i < |line|
      ensures m[i] == NumeralBits(line)[i]
    {
    }
    assert m == NumeralBits(line);
    assert r == [NumeralBits(line)];
  }

  /** An image carrying a 12-bit message decodes to that message's digits. */
  lemma DecodeMarked(img: Raster, m: seq<Bit>)
    requires img.Valid() && |m| == NumBits <= Capacity(img)
    ensures EncodeImage(img, m).Ok?
    ensures DecodeWatermark([EncodeImage(img, m).value]) == Ok([BitString(m)])
  {
    var marked := EncodeImage(img, m).value;
    FlatRoundTrip(img, m, NumBits);
    assert DecodeImage(marked, NumBits).value == m;
    var wm := DecodeWatermark([marked]).value;
    assert NumeralBits(wm[0]) == m;
    BitStringOfNumeral(wm[0]);
    assert wm == [BitString(m)];
  }
}

=== FILE: messages.dfy ===
/** Watermark message helpers of the marketplace codec
    (src/lsb_watermarking/utils.py): text to 8-bit binary and back, and
    turning the lines of a message file into N equal-length bit messages. */
module Messages {

  import opened Arith
  import opened Seqs
  import opened Results
  import opened Lsb
  import opened Binary

  // ---------------------------------------------------------------------
  // string_to_binary / binary_to_string
  // ---------------------------------------------------------------------

  /** Every character has an 8-bit code point. */
  predicate Latin1(text: string)
  {
    forall i :: 0 <= i < |text| ==> (text[i] as int) < 256
  }

  /** `string_to_binary(st)`: the `'08b'` numeral of each code point, in order. */
  function StringToBinary(text: string): (r: string)
    ensures IsBinary(r)
    ensures Latin1(text) ==> |r| == 8 * |text|
    ensures |text| > 0 ==> |r| >= 8
    ensures |text| > 0 && (text[0] as int) < 256 ==>
              r[..8] == BitsOf(text[0] as nat, 8) && r[8..] == StringToBinary(text[1..])
  {
    if |text| == 0 then []
    else
      var head := Format08b(text[0] as nat);
      var tail := StringToBinary(text[1..]);
      assert Latin1(text) ==> Latin1(text[1..]);
      BinaryConcat(head, tail);
      var r := head + tail;
      assert (text[0] as int) < 256 ==> r[..8] == head && r[8..] == tail;
      r
  }

  /** For 8-bit text, characters `8 * i .. 8 * i + 8` of `string_to_binary`
      are the 8-digit numeral of character `i`. */
  lemma {:induction false} StringToBinaryChunks(text: string, i: nat)
    requires Latin1(text) && i < |text|
    ensures 8 * i + 8 <= |StringToBinary(text)|
    ensures StringToBinary(text)[8 * i .. 8 * i + 8] == BitsOf(text[i] as nat, 8)
  {
    var r := StringToBinary(text);
    if i == 0 {
      assert r[0..8] == r[..8];
    } else {
      var tail := text[1..];
      assert Latin1(tail);
      StringToBinaryChunks(tail, i - 1);
      var rest := StringToBinary(tail);
      assert r[8..] == rest;
      var lo := 8 * (i - 1);
      assert 8 * i == 8 + lo;
      SliceOfSuffix(r, 8, lo, lo + 8);
    }
  }

  /** `binary_to_string(bi)`: 8-digit chunks from the left (the last one may be
      shorter), each read with `int(chunk, 2)` and turned into a character. */
  function BinaryToString(bits: string): (r: Result<string>)
    ensures r.Ok? <==> IsBinary(bits)
    ensures r.Ok? ==> |r.value| == CeilDiv(|bits|, 8)
    ensures r.Ok? ==> Latin1(r.value)
    ensures r.Ok? ==> forall k :: 0 <= k < |r.value| ==>
                        8 * k < |bits| && r.value[k] as int == Value(bits[8 * k..Min(8 * k + 8, |bits|)])
    decreases |bits|
  {
    if |bits| == 0 then Ok([])
    else
      var cut := Min(8, |bits|);
      var head := ParseBin(bits[..cut]);
      var tail := BinaryToString(bits[cut..]);
      BinarySplit(bits, cut);
      if head.Err? then Err(head.error)
      else if tail.Err? then Err(tail.error)
      else
        Pow2Mono(cut, 8);
        assert Pow2(8) == 256;
        ChunkChars(bits, head.value, tail.value);
        Ok([head.value as char] + tail.value)
  }

  /** A digit string is binary exactly when both sides of a cut are. */
  lemma BinarySplit(bits: string, cut: nat)
    requires cut <= |bits|
    ensures IsBinary(bits) <==> IsBinary(bits[..cut]) && IsBinary(bits[cut..])
  {
    if !IsBinary(bits) {
      var i :| 0 <= i < |bits| && !IsBinaryDigit(bits[i]);
      if i >= cut {
        assert !IsBinaryDigit(bits[cut..][i - cut]);
      } else {
        assert !IsBinaryDigit(bits[..cut][i]);
      }
    }
  }

  /** The first character read from the first chunk, the rest from the
      remaining digits, is character `k` read from chunk `k`. */
  lemma ChunkChars(bits: string, code: nat, rest: string)
    requires |bits| > 0 && IsBinary(bits) && code < 256
    requires code == Value(bits[..Min(8, |bits|)])
    requires forall k :: 0 <= k < |rest| ==>
               var tail := bits[Min(8, |bits|)..];
               8 * k < |tail| && rest[k] as int == Value(tail[8 * k..Min(8 * k + 8, |tail|)])
    ensures forall k :: 0 <= k < 1 + |rest| ==>
              8 * k < |bits| && ([code as char] + rest)[k] as int == Value(bits[8 * k..Min(8 * k + 8, |bits|)])
  {
    forall k | 0 <= k < 1 + |rest|
      ensures 8 * k < |bits| && ([code as char] + rest)[k] as int == Value(bits[8 * k..Min(8 * k + 8, |bits|)])
    {
      if k > 0 {
        var tail := bits[Min(8, |bits|)..];
        assert 8 * (k - 1) < |tail| && rest[k - 1] as int == Value(tail[8 * (k - 1)..Min(8 * (k - 1) + 8, |tail|)]);
        ChunkOfSuffix(bits, k);
      }
    }
  }

  /** Chunk `k - 1` of the digits after the first eight is chunk `k` of all of them. */
  lemma ChunkOfSuffix(bits: string, k: nat)
    requires k >= 1 && |bits| > 8 && 8 * (k - 1) < |bits| - 8
    ensures 8 * k < |bits|
    ensures bits[8..][8 * (k - 1)..Min(8 * (k - 1) + 8, |bits| - 8)] == bits[8 * k..Min(8 * k + 8, |bits|)]
  {
    SliceOfSuffix(bits, 8, 8 * (k - 1), Min(8 * (k - 1) + 8, |bits| - 8));
  }

  /** `binary_to_string(string_to_binary(st)) == st` for 8-bit text. */
  lemma {:induction false} BinaryRoundTrip(text: string)
    requires Latin1(text)
    ensures BinaryToString(StringToBinary(text)) == Ok(text)
  {
    if |text| > 0 {
      var bits := StringToBinary(text);
      var c := text[0] as nat;
      var rest := StringToBinary(text[1..]);
      assert Latin1(text[1..]);
      BinaryRoundTrip(text[1..]);
      assert bits == BitsOf(c, 8) + rest by {
        assert bits == bits[..8] + bits[8..];
      }
      DecodeFirstChunk(c, rest);
      assert text == [text[0]] + text[1..];
    }
  }

  /** An 8-digit chunk in front decodes to its character in front. */
  lemma DecodeFirstChunk(c: nat, rest: string)
    requires c < 256 && IsBinary(rest)
    ensures BinaryToString(BitsOf(c, 8) + rest) == Ok([c as char] + BinaryToString(rest).value)
  {
    var bits := BitsOf(c, 8) + rest;
    assert Pow2(8) == 256;
    ParseBitsOf(c, 8);
    BinaryConcat(BitsOf(c, 8), rest);
    assert bits[..8] == BitsOf(c, 8) && bits[8..] == rest;
  }

  // ---------------------------------------------------------------------
  // load_messages
  // ---------------------------------------------------------------------

  /** `max(len(line) for line in lines)`, 0 for no lines. */
  function MaxLength(lines: seq<string>): (m: nat)
    ensures forall i :: 0 <= i < |lines| ==> |lines[i]| <= m
    ensures |lines| > 0 ==> exists i :: 0 <= i < |lines| && |lines[i]| == m
  {
    if |lines| == 0 then 0
    else
      var m := MaxLength(lines[1..]);
      if |lines[0]| >= m then |lines[0]|
      else
        assert exists i :: 0 <= i < |lines[1..]| && |lines[1..][i]| == m;
        m
  }

  /** `line + fill * (width - len(line))` */
  function PadRight(line: string, width: nat, fill: char): (r: string)
    ensures |r| == Max(|line|, width)
    ensures r[..|line|] == line
    ensures forall i :: |line| <= i < |r| ==> r[i] == fill
  {
    if |line| >= width then line else line + seq(width - |line|, i => fill)
  }

  predicate IsDecimalDigit(c: char)
  {
    '0' <= c <= '9'
  }

  /** `int(c) == 1` for one character; a character that is not a decimal
      digit raises ValueError. */
  function DigitIsOne(c: char): (r: Result<Bit>)
    ensures r.Ok? <==> IsDecimalDigit(c)
    ensures r.Err? ==> r.error == InvalidLiteral([c])
    ensures r.Ok? ==> (r.value == 1 <==> c == '1')
  {
    if IsDecimalDigit(c) then Ok(if c == '1' then 1 else 0) else Err(InvalidLiteral([c]))
  }

  /** `[int(i) == 1 for i in line]` */
  function LineBits(line: string): (r: Result<seq<Bit>>)
    ensures r.Ok? <==> forall i :: 0 <= i < |line| ==> IsDecimalDigit(line[i])
    ensures r.Ok? ==> |r.value| == |line|
    ensures r.Ok? ==> forall i :: 0 <= i < |line| ==> (r.value[i] == 1 <==> line[i] == '1')
  {
    if |line| == 0 then Ok([])
    else
      var b :- DigitIsOne(line[0]);
      var rest :- LineBits(line[1..]);
      Ok([b] + rest)
  }

  /** The bits of each line, in order; the first bad line decides the error. */
  function AllLineBits(lines: seq<string>): (r: Result<seq<seq<Bit>>>)
    ensures r.Ok? <==> forall j :: 0 <= j < |lines| ==> LineBits(lines[j]).Ok?
    ensures r.Ok? ==> |r.value| == |lines|
    ensures r.Ok? ==> forall j :: 0 <= j < |lines| ==> r.value[j] == LineBits(lines[j]).value
  {
    if |lines| == 0 then Ok([])
    else
      var first :- LineBits(lines[0]);
      var rest :- AllLineBits(lines[1..]);
      assert forall j :: 1 <= j < |lines| ==> lines[j] == lines[1..][j - 1];
      Ok([first] + rest)
  }

  /** The bits of a binary numeral, `'1'` as 1 and `'0'` as 0. */
  function NumeralBits(numeral: string): (r: seq<Bit>)
    requires IsBinary(numeral)
    ensures |r| == |numeral|
    ensures forall i :: 0 <= i < |r| ==> r[i] == DigitValue(numeral[i])
  {
    seq(|numeral|, i requires 0 <= i < |numeral| => DigitValue(numeral[i]))
  }

  /** Bit mode of `load_messages` before repetition: each line right-padded
      with '0' to the longest line, then `int(c) == 1` per character. */
  function BitModeMessages(lines: seq<string>): (r: Result<seq<seq<Bit>>>)
    ensures r.Ok? <==> forall j, i :: 0 <= j < |lines| && 0 <= i < |lines[j]| ==> IsDecimalDigit(lines[j][i])
    ensures r.Ok? ==> |r.value| == |lines|
    ensures r.Ok? ==> forall j :: 0 <= j < |lines| ==>
                        |r.value[j]| == MaxLength(lines) &&
                        forall i :: 0 <= i < MaxLength(lines) ==>
                          (r.value[j][i] == 1 <==> i < |lines[j]| && lines[j][i] == '1')
  {
    var width := MaxLength(lines);
    var padded := seq(|lines|, j requires 0 <= j < |lines| => PadRight(lines[j], width, '0'));
    forall j | 0 <= j < |lines|
      ensures (forall i :: 0 <= i < |padded[j]| ==> IsDecimalDigit(padded[j][i])) <==>
              (forall i :: 0 <= i < |lines[j]| ==> IsDecimalDigit(lines[j][i]))
    {
      assert forall i :: 0 <= i < |lines[j]| ==> padded[j][i] == lines[j][i];
    }
    AllLineBits(padded)
  }

  /** Text mode of `load_messages` before repetition: each line right-padded
      with ' ' to the longest line, then the bits of `string_to_binary`. */
  function TextModeMessages(lines: seq<string>): (r: seq<seq<Bit>>)
    ensures |r| == |lines|
    ensures forall j :: 0 <= j < |lines| ==>
              r[j] == NumeralBits(StringToBinary(PadRight(lines[j], MaxLength(lines), ' ')))
    ensures forall j :: 0 <= j < |lines| && Latin1(lines[j]) ==> |r[j]| == 8 * MaxLength(lines)
    ensures forall j, i :: 0 <= j < |lines| && Latin1(lines[j]) && 0 <= i < MaxLength(lines) ==>
              8 * i + 8 <= |r[j]| && r[j][8 * i..8 * i + 8] == NumeralBits(BitsOf(PaddedChar(lines[j], i) as nat, 8))
  {
    var width := MaxLength(lines);
    seq(|lines|, j requires 0 <= j < |lines| => TextMessage(lines[j], width))
  }

  /** One text-mode message: the bits of `string_to_binary` of the line
      right-padded with ' ' to `width`, 8 per padded character. */
  function TextMessage(line: string, width: nat): (m: seq<Bit>)
    ensures m == NumeralBits(StringToBinary(PadRight(line, width, ' ')))
    ensures Latin1(line) && |line| <= width ==> |m| == 8 * width
    ensures Latin1(line) && |line| <= width ==>
              forall i :: 0 <= i < width ==>
                8 * i + 8 <= |m| && m[8 * i..8 * i + 8] == NumeralBits(BitsOf(PaddedChar(line, i) as nat, 8))
  {
    var m := NumeralBits(StringToBinary(PadRight(line, width, ' ')));
    assert Latin1(line) && |line| <= width ==> |m| == 8 * width && forall i :: 0 <= i < width ==>
             8 * i + 8 <= |m| && m[8 * i..8 * i + 8] == NumeralBits(BitsOf(PaddedChar(line, i) as nat, 8)) by {
      if Latin1(line) && |line| <= width {
        PaddedLength(line, width);
        forall i | 0 <= i < width
          ensures 8 * i + 8 <= |m| && m[8 * i..8 * i + 8] == NumeralBits(BitsOf(PaddedChar(line, i) as nat, 8))
        {
          PaddedTextChunk(line, width, i);
        }
      }
    }
    m
  }

  /** Character `i` of a line right-padded with ' ': the line's own
      character, or the fill past its end. */
  function PaddedChar(line: string, i: nat): char
  {
    if i < |line| then line[i] else ' '
  }

  /** A padded 8-bit line gives 8 bits per character of the padded width. */
  lemma PaddedLength(line: string, width: nat)
    requires Latin1(line) && |line| <= width
    ensures Latin1(PadRight(line, width, ' '))
    ensures |NumeralBits(StringToBinary(PadRight(line, width, ' ')))| == 8 * width
  {
    var padded := PadRight(line, width, ' ');
    assert Latin1(padded) by {
      forall i | 0 <= i < |padded|
        ensures (padded[i] as int) < 256
      {
        if i < |line| {
          assert padded[i] == padded[..|line|][i];
        }
      }
    }
  }

  /** Bits `8 i .. 8 i + 8` of a padded 8-bit line are the code of its padded character `i`. */
  lemma PaddedTextChunk(line: string, width: nat, i: nat)
    requires Latin1(line) && |line| <= width && i < width
    ensures |NumeralBits(StringToBinary(PadRight(line, width, ' ')))| == 8 * width
    ensures NumeralBits(StringToBinary(PadRight(line, width, ' ')))[8 * i..8 * i + 8] ==
            NumeralBits(BitsOf(PaddedChar(line, i) as nat, 8))
  {
    PaddedLength(line, width);
    var padded := PadRight(line, width, ' ');
    assert Latin1(padded) && padded[i] == PaddedChar(line, i) by {
      PaddedLength(line, width);
      forall k | 0 <= k < |padded|
        ensures (padded[k] as int) < 256
      {
        if k < |line| {
          assert padded[k] == padded[..|line|][k];
        }
      }
      if i < |line| {
        assert padded[i] == padded[..|line|][i];
      }
    }
    var digits := StringToBinary(padded);
    StringToBinaryChunks(padded, i);
    var bits := NumeralBits(digits);
    assert bits[8 * i..8 * i + 8] == NumeralBits(digits[8 * i..8 * i + 8]);
  }

  /** `load_messages(path, msg_type, N)`, given the file's stripped lines:
      the padded messages repeated cyclically up to exactly N of them. */
  function LoadMessages(lines: seq<string>, msgType: string, n: nat): (r: Result<seq<seq<Bit>>>)
    ensures |lines| == 0 ==> r == Ok([])
    ensures msgType != "bit" ==> r.Ok?
    ensures msgType == "bit" ==> (r.Ok? <==> BitModeMessages(lines).Ok?)
    ensures r.Ok? && |lines| > 0 ==> |r.value| == n
    ensures r.Ok? && |lines| > 0 && msgType == "bit" ==>
              forall j :: 0 <= j < n ==> r.value[j] == BitModeMessages(lines).value[j % |lines|]
    ensures r.Ok? && |lines| > 0 && msgType != "bit" ==>
              forall j :: 0 <= j < n ==> r.value[j] == TextModeMessages(lines)[j % |lines|]
  {
    if |lines| == 0 then Ok([])
    else if msgType == "bit" then
      var msgs :- BitModeMessages(lines);
      Ok(CycleTo(msgs, n))
    else
      Ok(CycleTo(TextModeMessages(lines), n))
  }
}

=== FILE: paths.dfy ===
/** The POSIX path operations the batch encoder names its outputs with:
    `os.path.basename`, `os.path.splitext` and `os.path.join`. */
module Paths {

  import opened Results

  /** `s.rfind(c)`: the last index of `c`, or -1. */
  function LastIndex(s: string, c: char): (k: int)
    ensures -1 <= k < |s|
    ensures k >= 0 ==> s[k] == c
    ensures forall i :: k < i < |s| ==> s[i] != c
  {
    if |s| == 0 then -1
    else if s[|s| - 1] == c then |s| - 1
    else LastIndex(s[..|s| - 1], c)
  }

  /** `os.path.basename(p)`: everything after the last '/'. */
  function Basename(p: string): (r: string)
    ensures forall i :: 0 <= i < |r| ==> r[i] != '/'
    ensures |r| <= |p| && p[|p| - |r|..] == r
    ensures |r| < |p| ==> p[|p| - |r| - 1] == '/'
  {
    var k := LastIndex(p, '/');
    p[k + 1..]
  }

  /** Whether `p[lo..hi]` holds a character other than '.'. */
  predicate HasNonDot(p: string, lo: nat, hi: nat)
    requires lo <= hi <= |p|
  {
    exists i :: lo <= i < hi && p[i] != '.'
  }

  /** `os.path.splitext(p)`: the extension starts at the last '.' after the
      last '/', unless only dots precede it in the last component
      (".bashrc" has no extension). */
  function SplitExt(p: string): (r: (string, string))
    ensures r.0 + r.1 == p
    ensures r.1 != [] <==> LastIndex(p, '.') > LastIndex(p, '/') &&
                           HasNonDot(p, LastIndex(p, '/') + 1, LastIndex(p, '.'))
    ensures r.1 != [] ==> r.1[0] == '.'
    ensures forall i :: 0 <= i < |r.1| ==> r.1[i] != '/'
    ensures forall i :: 1 <= i < |r.1| ==> r.1[i] != '.'
  {
    var sep := LastIndex(p, '/');
    var dot := LastIndex(p, '.');
    if dot > sep && HasNonDot(p, sep + 1, dot) then
      (p[..dot], p[dot..])
    else (p, [])
  }

  /** `os.path.join(a, b)` for two components. */
  function JoinPath(a: string, b: string): (r: string)
    ensures |b| > 0 && b[0] == '/' ==> r == b
    ensures !(|b| > 0 && b[0] == '/') ==> |r| >= |a| + |b| && r[..|a|] == a && r[|r| - |b|..] == b
    ensures !(|b| > 0 && b[0] == '/') && |a| > 0 && a[|a| - 1] != '/' ==> r == a + "/" + b
  {
    if |b| > 0 && b[0] == '/' then b
    else if |a| == 0 || a[|a| - 1] == '/' then a + b
    else a + "/" + b
  }

  /** Appending text without `c` does not move the last `c`. */
  lemma {:induction false} LastIndexAppend(a: string, b: string, c: char)
    requires forall i :: 0 <= i < |b| ==> b[i] != c
    ensures LastIndex(a + b, c) == LastIndex(a, c)
    decreases |b|
  {
    if |b| == 0 {
      assert a + b == a;
    } else {
      assert (a + b)[..|a + b| - 1] == a + b[..|b| - 1];
      LastIndexAppend(a, b[..|b| - 1], c);
    }
  }

  const Marker: string := "_watermarked"

  /** `f"{name}_watermarked{ext}"` with `name, ext = os.path.splitext(filename)`:
      the output name splits into the marked stem and the same extension. */
  function WatermarkedName(filename: string): (r: string)
    ensures SplitExt(r) == (SplitExt(filename).0 + Marker, SplitExt(filename).1)
  {
    WatermarkedSplit(filename);
    SplitExt(filename).0 + Marker + SplitExt(filename).1
  }

  lemma WatermarkedSplit(filename: string)
    ensures var (name, ext) := SplitExt(filename);
            SplitExt(name + Marker + ext) == (name + Marker, ext)
  {
    assert forall i :: 0 <= i < |Marker| ==> Marker[i] != '/' && Marker[i] != '.';
    if SplitExt(filename).1 == [] {
      MarkNoExtension(filename);
    } else {
      MarkExtension(filename);
    }
  }

  lemma MarkNoExtension(filename: string)
    requires forall i :: 0 <= i < |Marker| ==> Marker[i] != '/' && Marker[i] != '.'
    requires SplitExt(filename).1 == []
    ensures SplitExt(filename + Marker) == (filename + Marker, [])
  {
    var r := filename + Marker;
    LastIndexAppend(filename, Marker, '/');
    LastIndexAppend(filename, Marker, '.');
    var sep := LastIndex(filename, '/');
    assert forall i :: 0 <= i < |filename| ==> r[i] == filename[i];
  }

  lemma MarkExtension(filename: string)
    requires forall i :: 0 <= i < |Marker| ==> Marker[i] != '/' && Marker[i] != '.'
    requires SplitExt(filename).1 != []
    ensures var (name, ext) := SplitExt(filename);
            SplitExt(name + Marker + ext) == (name + Marker, ext)
  {
    var (name, ext) := SplitExt(filename);
    var stem := name + Marker;
    var r := stem + ext;
    var sep := LastIndex(filename, '/');
    var dot := LastIndex(filename, '.');
    assert name == filename[..dot] && ext == filename[dot..];
    LastIndexAppend(name, ext, '/');
    LastIndexAppend(name, Marker, '/');
    LastIndexAppend(stem, ext, '/');
    assert LastIndex(r, '/') == sep;
    LastIndexAppend(stem + [ext[0]], ext[1..], '.');
    assert r == (stem + [ext[0]]) + ext[1..];
    assert LastIndex(r, '.') == |stem|;
    assert r[|stem| - 1] == 'd';
    assert HasNonDot(r, sep + 1, |stem|);
    assert r[..|stem|] == stem && r[|stem|..] == ext;
  }
}

=== FILE: raster.dfy ===
/** An image array as numpy stores it: shape (height, width, channels) over a
    flat, row-major sequence of samples with the channel index fastest. */
module Rasters {

  import opened Arith
  import opened Lsb
  import Seqs

  /** A pixel coordinate (row, col). */
  datatype Pos = Pos(row: nat, col: nat)

  /** One sample of a raster: a pixel and a channel of it. */
  datatype Slot = Slot(pixel: Pos, channel: nat)

  datatype Raster = Raster(height: nat, width: nat, channels: nat, samples: seq<Sample>) {

    predicate Valid()
    {
      |samples| == height * width * channels
    }

    predicate Holds(s: Slot)
    {
      s.pixel.row < height && s.pixel.col < width && s.channel < channels
    }

    /** Where sample `img[row, col, channel]` sits in the flattened array. */
    function Offset(s: Slot): (j: nat)
      requires Valid() && Holds(s)
      ensures j < |samples|
    {
      RadixBound(s.pixel.row, height, s.pixel.col, width);
      RadixBound(s.pixel.row * width + s.pixel.col, height * width, s.channel, channels);
      (s.pixel.row * width + s.pixel.col) * channels + s.channel
    }

    function At(s: Slot): Sample
      requires Valid() && Holds(s)
    {
      samples[Offset(s)]
    }

    predicate SameShape(other: Raster)
    {
      height == other.height && width == other.width && channels == other.channels
    }
  }

  /** Distinct samples live at distinct offsets. */
  lemma OffsetInjective(img: Raster, a: Slot, b: Slot)
    requires img.Valid() && img.Holds(a) && img.Holds(b)
    requires img.Offset(a) == img.Offset(b)
    ensures a == b
  {
    RadixInjective(a.pixel.row * img.width + a.pixel.col, a.channel,
                   b.pixel.row * img.width + b.pixel.col, b.channel, img.channels);
    RadixInjective(a.pixel.row, a.pixel.col, b.pixel.row, b.pixel.col, img.width);
  }

  /** The sample at flat index `i`: channel `i mod C` of pixel
      `((i div C) div W, (i div C) mod W)`. */
  function FlatSlot(img: Raster, i: nat): Slot
    requires img.channels > 0 && img.width > 0
  {
    var p := i / img.channels;
    Slot(Pos(p / img.width, p % img.width), i % img.channels)
  }

  /** Flat index `i` of a valid raster is the offset of `FlatSlot(img, i)`. */
  lemma FlatLayout(img: Raster, i: nat)
    requires img.Valid() && i < |img.samples|
    ensures img.channels > 0 && img.width > 0
    ensures img.Holds(FlatSlot(img, i)) && img.Offset(FlatSlot(img, i)) == i
  {
    var C := img.channels;
    var W := img.width;
    DivBelow(i, img.height * W, C);
    var p := i / C;
    DivBelow(p, img.height, W);
    DivMod(i, C);
    DivMod(p, W);
  }

  /** The flat offsets of a sequence of samples, in order. */
  function Offsets(img: Raster, slots: seq<Slot>): (t: seq<nat>)
    requires img.Valid()
    requires forall k :: 0 <= k < |slots| ==> img.Holds(slots[k])
    ensures |t| == |slots|
    ensures forall k :: 0 <= k < |t| ==> t[k] == img.Offset(slots[k]) && t[k] < |img.samples|
    ensures forall s :: img.Holds(s) && s !in slots ==> img.Offset(s) !in t
    ensures Seqs.Distinct(slots) ==> Seqs.Distinct(t)
  {
    var t := seq(|slots|, k requires 0 <= k < |slots| => img.Offset(slots[k]));
    assert forall s :: img.Holds(s) && s !in slots ==> img.Offset(s) !in t by {
      forall s, k | img.Holds(s) && 0 <= k < |t| && t[k] == img.Offset(s)
        ensures s in slots
      {
        OffsetInjective(img, s, slots[k]);
      }
    }
    assert Seqs.Distinct(slots) ==> Seqs.Distinct(t) by {
      forall i, j | 0 <= i < j < |t| && t[i] == t[j]
        ensures slots[i] == slots[j]
      {
        OffsetInjective(img, slots[i], slots[j]);
      }
    }
    t
  }

  /** Every sample of `a` and `b` agrees except possibly in bit 0. */
  predicate LsbOnlyChange(a: Raster, b: Raster)
  {
    |a.samples| == |b.samples| &&
    forall j :: 0 <= j < |a.samples| ==> SameUpperBits(a.samples[j], b.samples[j])
  }

  /** Writes `bits[k]` into bit 0 of sample `slots[k]`, in order. */
  function WriteSlots(img: Raster, slots: seq<Slot>, bits: seq<Bit>): (out: Raster)
    requires img.Valid() && |slots| == |bits|
    requires forall k :: 0 <= k < |slots| ==> img.Holds(slots[k])
    ensures out.Valid() && out.SameShape(img) && LsbOnlyChange(img, out)
    ensures forall s :: img.Holds(s) ==> out.Holds(s)
    ensures forall s :: img.Holds(s) && s !in slots ==> out.At(s) == img.At(s)
    ensures Seqs.Distinct(slots) ==>
              forall k :: 0 <= k < |slots| ==> out.At(slots[k]) == SetLsb(img.At(slots[k]), bits[k])
  {
    var w := WriteLsbs(img.samples, Offsets(img, slots), bits);
    WrittenKeeps(img, slots, bits);
    WrittenSets(img, slots, bits);
    img.(samples := w)
  }

  /** Replacing the samples by as many others keeps every slot's offset. */
  lemma AtReplaced(img: Raster, w: seq<Sample>, s: Slot)
    requires img.Valid() && |w| == |img.samples| && img.Holds(s)
    ensures img.(samples := w).Valid() && img.(samples := w).Holds(s)
    ensures img.(samples := w).At(s) == w[img.Offset(s)]
  {
    assert img.(samples := w).Offset(s) == img.Offset(s);
  }

  lemma WrittenKeeps(img: Raster, slots: seq<Slot>, bits: seq<Bit>)
    requires img.Valid() && |slots| == |bits|
    requires forall k :: 0 <= k < |slots| ==> img.Holds(slots[k])
    ensures var out := img.(samples := WriteLsbs(img.samples, Offsets(img, slots), bits));
            out.Valid() && forall s :: img.Holds(s) && s !in slots ==> out.Holds(s) && out.At(s) == img.At(s)
  {
    var t := Offsets(img, slots);
    var w := WriteLsbs(img.samples, t, bits);
    forall s | img.Holds(s) && s !in slots
      ensures img.(samples := w).Holds(s) && img.(samples := w).At(s) == img.At(s)
    {
      AtReplaced(img, w, s);
      assert img.Offset(s) !in t;
    }
  }

  lemma WrittenSets(img: Raster, slots: seq<Slot>, bits: seq<Bit>)
    requires img.Valid() && |slots| == |bits|
    requires forall k :: 0 <= k < |slots| ==> img.Holds(slots[k])
    ensures var out := img.(samples := WriteLsbs(img.samples, Offsets(img, slots), bits));
            out.Valid() &&
            forall k :: 0 <= k < |slots| ==>
              (out.Holds(slots[k]) &&
               (Seqs.Distinct(slots) ==> out.At(slots[k]) == SetLsb(img.At(slots[k]), bits[k])))
  {
    var t := Offsets(img, slots);
    var w := WriteLsbs(img.samples, t, bits);
    if Seqs.Distinct(slots) {
      WriteLsbsSets(img.samples, t, bits);
    }
    forall k | 0 <= k < |slots|
      ensures img.(samples := w).Holds(slots[k])
      ensures Seqs.Distinct(slots) ==> img.(samples := w).At(slots[k]) == SetLsb(img.At(slots[k]), bits[k])
    {
      AtReplaced(img, w, slots[k]);
    }
  }

  /** Bit 0 of sample `slots[k]`, for each k in order. */
  function ReadSlots(img: Raster, slots: seq<Slot>): (r: seq<Bit>)
    requires img.Valid()
    requires forall k :: 0 <= k < |slots| ==> img.Holds(slots[k])
    ensures |r| == |slots|
    ensures forall k :: 0 <= k < |r| ==> r[k] == LsbOf(img.At(slots[k]))
  {
    ReadLsbs(img.samples, Offsets(img, slots))
  }

  /** Reading back the samples just written, none of them twice, gives the bits. */
  lemma ReadSlotsAfterWrite(img: Raster, slots: seq<Slot>, bits: seq<Bit>)
    requires img.Valid() && |slots| == |bits|
    requires forall k :: 0 <= k < |slots| ==> img.Holds(slots[k])
    requires Seqs.Distinct(slots)
    ensures ReadSlots(WriteSlots(img, slots, bits), slots) == bits
  {
  }
}

=== FILE: results.dfy ===
/** The errors the Python code raises, as values. */
module Results {

  datatype Option<+T> = None | Some(value: T)

  /** One constructor per exception the modelled code can raise. */
  datatype Error =
    | CapacityExceeded(needed: nat, available: nat)  // ValueError: too many bits for the image
    | UnknownPattern(name: string)                  // ValueError: pattern not alternating/ones/checksum
    | MissingNumBits                                // ValueError: extract_multibit without num_bits
    | InvalidSeed(seed: int)                        // ValueError from RandomState: seed outside [0, 2^32)
    | DivisionByZero                                // ZeroDivisionError
    | InvalidLiteral(text: string)                  // ValueError from int(text) or int(text, 2)
    | DecodeFailed                                  // ValueError: nothing decoded
    | WatermarkTooShort(length: nat)                // ValueError: fewer than 12 bits decoded

  /** Either the value the Python function returns or the exception it raises. */
  datatype Result<+T> = Ok(value: T) | Err(error: Error) {

    predicate IsFailure()
    {
      Err?
    }

    function PropagateFailure<U>(): Result<U>
      requires Err?
    {
      Err(error)
    }

    function Extract(): T
      requires Ok?
    {
      value
    }
  }
}

=== FILE: seqs.dfy ===
/** Sequence notions shared by the codecs and the message helpers. */
module Seqs {

  import opened Arith

  predicate Distinct<T(==)>(s: seq<T>)
  {
    forall i, j :: 0 <= i < j < |s| ==> s[i] != s[j]
  }

  /** Dropping the head keeps the rest distinct, and the head is not among it. */
  lemma DistinctTail<T>(s: seq<T>)
    requires |s| > 0
    ensures Distinct(s) ==> Distinct(s[1..]) && s[0] !in s[1..]
  {
  }

  /** `s * q` in Python: `q` copies of `s` laid end to end. */
  function Cycle<T>(s: seq<T>, q: nat): (r: seq<T>)
    ensures |r| == q * |s|
    ensures forall i :: 0 <= i < |r| ==> r[i] == s[i % |s|]
  {
    if q == 0 then []
    else
      var rest := Cycle(s, q - 1);
      var r := s + rest;
      MulPred(q, |s|);
      assert forall i :: 0 <= i < |r| ==> r[i] == s[i % |s|] by {
        forall i | 0 <= i < |r|
          ensures r[i] == s[i % |s|]
        {
          if i < |s| {
            ModBelow(i, |s|);
          } else {
            DivSubOne(i, |s|);
            assert r[i] == rest[i - |s|];
          }
        }
      }
      r
  }

  /** `(s * (n // len(s) + 1))[:n]`: `s` repeated cyclically up to length `n`. */
  function CycleTo<T>(s: seq<T>, n: nat): (r: seq<T>)
    requires |s| > 0
    ensures |r| == n
    ensures forall j :: 0 <= j < n ==> r[j] == s[j % |s|]
  {
    var whole := Cycle(s, n / |s| + 1);
    DivMod(n, |s|);
    MulMono(n / |s| + 1, n / |s| + 1, |s|);
    whole[..n]
  }

  /** A slice of a suffix is a slice of the whole, shifted. */
  lemma SliceOfSuffix<T>(s: seq<T>, k: nat, lo: nat, hi: nat)
    requires lo <= hi && k + hi <= |s|
    ensures s[k..][lo..hi] == s[k + lo..k + hi]
  {
  }
}

=== FILE: xor_cipher.dfy ===
/** `xor_cipher(data, key)` of src/utils.py: the data XORed with the key
    repeated to the data's length. */
module XorCipher {

  import opened Arith
  import opened Seqs
  import opened Results

  type Byte = bv8

  /** The key stream: whole copies of the key, then the prefix of the key that
      makes up the remaining length. */
  function KeyStream(key: seq<Byte>, n: nat): (r: seq<Byte>)
    requires |key| > 0
    ensures |r| == n
    ensures forall i :: 0 <= i < n ==> r[i] == key[i % |key|]
  {
    var k := |key|;
    var whole := Cycle(key, n / k);
    var tail := key[..n % k];
    DivMod(n, k);
    var r := whole + tail;
    assert forall i :: |whole| <= i < n ==> r[i] == key[i % k] by {
      forall i | |whole| <= i < n
        ensures r[i] == key[i % k]
      {
        RadixDigits(n / k, i - |whole|, k);
      }
    }
    r
  }

  /** `xor_cipher(data, key)`; an empty key divides by zero. */
  function Xor(data: seq<Byte>, key: seq<Byte>): (r: Result<seq<Byte>>)
    ensures r.Err? <==> |key| == 0
    ensures r.Err? ==> r.error == DivisionByZero
    ensures r.Ok? ==> |r.value| == |data|
    ensures r.Ok? ==> forall i :: 0 <= i < |data| ==> r.value[i] == data[i] ^ key[i % |key|]
  {
    if |key| == 0 then Err(DivisionByZero)
    else
      var stream := KeyStream(key, |data|);
      Ok(seq(|data|, i requires 0 <= i < |data| => data[i] ^ stream[i]))
  }

  /** Enciphering twice with one key gives the data back. */
  lemma XorInvolution(data: seq<Byte>, key: seq<Byte>)
    requires |key| > 0
    ensures Xor(Xor(data, key).value, key) == Ok(data)
  {
    var once := Xor(data, key).value;
    var twice := Xor(once, key).value;
    forall i | 0 <= i < |data|
      ensures twice[i] == data[i]
    {
      var b := key[i % |key|];
      assert twice[i] == (data[i] ^ b) ^ b;
    }
    assert twice == data;
  }

  /** Only the first `len(data)` bytes of a longer key matter. */
  lemma XorLongKey(data: seq<Byte>, key: seq<Byte>)
    requires |key| >= |data| > 0
    ensures Xor(data, key) == Xor(data, key[..|data|])
  {
    var a := Xor(data, key).value;
    var b := Xor(data, key[..|data|]).value;
    forall i | 0 <= i < |data|
      ensures a[i] == b[i]
    {
      ModBelow(i, |key|);
      ModBelow(i, |data|);
    }
    assert a == b;
  }
}
